=== FILE: README.md ===
# Kamikaze squad bot — a Dafny model

`cw3_kamikadze_bot.py` is a Telegram bot for the game Chat Wars 3 that keeps a "suicide squad"
roster in one chat message. The /suicide command posts an empty roster with a join button. Each
press of the button (the "add" callback):

- re-reads the roster message with two regular expressions, one for the header and one per row;
- looks up the pressing member's game API token in a user table;
- fetches the member's profile with it;
- stores the refreshed name and attack;
- rewrites the member's rows, or appends one;
- adjusts the total in the header;
- edits the message.

Linking an account goes through the game's authorisation-code message. The member forwards it
from the game's own account, and the bot trades the code for a token. /me shows what the table
holds for the sender. A timer sleeps until two minutes after each battle.

The model has six modules, one file each:

| file | module | what it holds |
|---|---|---|
| `wrappers.dfy` | `Wrappers` | `Option` and `Result` |
| `strings.dfy` | `Strings` | Python's `\d`, `int()`, `str()`, `str.rjust`, `str.split("\n")`, `filter(bool, …)`, and the newline-terminated row buffer |
| `codec.dfy` | `Codec` | the roster header and row patterns, their renderers, and the auth-code pattern |
| `store.dfy` | `Store` | the user table as a class over a map that its methods update in place |
| `reconcile.dfy` | `Reconcile` | what a press does to the roster's body lines, stated for any row reader |
| `bot.dfy` | `Bot` | the handlers |

The handlers in `Bot`:

- the "add" callback is an imperative method with its loop over the rows, proved equal to a function of the old table and the message;
- its version as written;
- the filter and the token grant;
- /me;
- the timer.

Modelling choices:

- **Regular expressions.** The three patterns are written out as scans that take the same
  choices as Python's backtracking matcher:
  - the header pattern uses the rightmost `)` that can close it;
  - the row pattern uses the rightmost user reference before the first line break.

  Each scan is proved to find exactly the match a declarative predicate describes (`HeaderAt`,
  `RowAt`, `AuthAt`). It is also proved to report the same groups.
- **Inputs.** The game API's answers are inputs to the handlers: `Fetch` for the profile request
  and `Grant` for the token request. So is the clock, as `now` for the timer. The same
  `Fetch` answers every profile request made during one press.
- **Line 199.** The handler as written adds the stored name, `u[1]`, to the running total. That
  raises TypeError on the first profile step that reaches it (see Findings).
  - The main model, `Bot.Add`, adds the attack the fresh row displays, `pr.atk`.
  - `Bot.AddAsWritten` keeps the code's behaviour.
- **Guild tags.** A profile with a guild tag reaches `pr.guid.tag`, which raises AttributeError.
  This is modelled as written: the press ends in `Crashed(AttributeError)` before anything is
  stored.

### Behaviour of the code worth knowing

- **Sleep length.** `__reset` sleeps `28920 - ((t - 21600) mod 28800)` seconds at Unix time `t`,
  i.e. until two minutes after the next eight-hour boundary. `Bot.ResetDelay` is that delay.
- **Battle state.** `__current_battle` is never assigned, so its `clear()` would raise
  AttributeError. Only the delay is modelled.
- **Total.** The header total is kept by deltas: each rewritten row loses the attack it
  displayed and gains the fresh one. It is not recomputed from the stored profiles.
  `Reconcile.GapPreserved` states what this keeps.
- **Negative totals lose their sign.** Profile attacks are integers and the total moves by
  deltas, so the corrected handler (`Bot.Add`) can write a negative total such as `-5`. The
  header pattern's `\D*` reads the '-' as one more non-digit, and the next press reads the total
  as `5`. `Codec.NegativeTotalLosesSign` states this. The handler as written never gets that
  far: it raises TypeError at line 199 before its edit (`Bot.AddAsWritten`).
- **Body lines can be swallowed.** The header pattern's greedy `\D+` settles on the rightmost
  ')' that has a character after it on its line, and `\D` also matches line breaks. If the body
  holds a ')' before its first digit, that ')' closes the header, and everything up to it is read
  as header. A body that is a single line made of a ')' and then other non-digits, without a
  second ')', leaves the roster with no body at all. `Codec.CloseLineSwallowed` states this. A
  row the handler writes starts with `<code>`, padding spaces and the attack's digits, so a body
  that starts with such a row never does this.

## Model

| member | source | states |
|---|---|---|
| Strings.NatToDecimal | cw3_kamikadze_bot.py:198 | `str()` of a non-negative attack is a non-empty digit string that `int()` reads back as the attack. It has no leading zero: 0 is written "0", and a longer result does not start with '0' |
| Strings.IntToDecimal | cw3_kamikadze_bot.py:219 | `str()` of any total: digits that read back as the value, after a '-' when it is negative. The digits have no leading zero: 0 is written "0", and no longer digit run starts with '0' |
| Strings.RJust | cw3_kamikadze_bot.py:198 | `rjust(5, ' ')` keeps the text as its suffix, pads with spaces only on the left, and has width max(5, length) |
| Strings.Split | cw3_kamikadze_bot.py:201 | `split("\n")` gives at least one piece and no piece holds a line break |
| Strings.SplitRejoin | cw3_kamikadze_bot.py:201 | joining the pieces of `split("\n")` with line breaks gives back the text |
| Strings.NonEmpty | cw3_kamikadze_bot.py:201 | `filter(bool, …)` keeps only non-empty strings, each taken from the input, and keeps everything when nothing is empty |
| Strings.BodyLines | cw3_kamikadze_bot.py:201 | the lines the loop visits are non-empty and hold no line break |
| Strings.DigitsValue | cw3_kamikadze_bot.py:155 | `int()` of a digit run; characterised by NatToDecimal, whose digits it reads back |
| Strings.JoinLines | cw3_kamikadze_bot.py:204 | the `StringIO` buffer after writing each row followed by a line break; characterised by JoinLinesSnoc and BodyLinesOfJoin |
| Strings.BodyLinesOfJoin | cw3_kamikadze_bot.py:204 | rows written one per line into the buffer are read back by the next press as exactly those rows |
| Codec.RenderHeader | cw3_kamikadze_bot.py:219 | the header line written with the running total; characterised by RenderedRosterParses and NegativeTotalLosesSign |
| Codec.RenderRow | cw3_kamikadze_bot.py:198 | the row written for a member; characterised by RenderedRowMatches and Bot.RowOneLine |
| Codec.ParseSquad | cw3_kamikadze_bot.py:151 | `squad_msg_pattern.search` with groups 1 and 2; characterised by ParseSquadExact and RestAfterLine |
| Codec.MatchRow | cw3_kamikadze_bot.py:202 | `squad_msg_row_pattern.search` with groups 1 and 2; characterised by MatchRowExact |
| Codec.AuthCode | cw3_kamikadze_bot.py:121 | `auth_code_pattern.search` and its group 1; characterised by AuthCodeExact |
| Codec.FindHeaderExact | cw3_kamikadze_bot.py:93 | the header scan succeeds exactly when the header pattern matches, at the match's first '(' and group 1, and its ')' is the rightmost one the pattern accepts |
| Codec.ParseSquadExact | cw3_kamikadze_bot.py:93 | a text is accepted as a roster exactly when the header pattern matches it, and the total read is group 1 of any match |
| Codec.RestAfterLine | cw3_kamikadze_bot.py:93 | group 2 is what follows the first line break after the header's ')': no line break lies between, and it is absent when there is none |
| Codec.LayoutParses | cw3_kamikadze_bot.py:93 | a text laid out as a non-empty title without '(', then '(', non-digits, digits, at least one non-digit, ')', and a non-empty line remainder without digits, ')' or line breaks, parses to those digits' value. When nothing follows, it has no body. When a line break and a body follow, the body must have no ')' before its first digit, and it is read as group 2 |
| Codec.EmptyRosterIsHeader | cw3_kamikadze_bot.py:147 | the message /suicide posts is the header the handler renders for total 0 |
| Codec.EmptyRosterParses | cw3_kamikadze_bot.py:147 | that message parses as a roster with total 0 and no body |
| Codec.RenderedRosterParses | cw3_kamikadze_bot.py:219 | header round trip: for a non-negative total and a body with no ')' before its first digit, the edited message reads back as a roster with the written total and the written body |
| Codec.NegativeTotalLosesSign | cw3_kamikadze_bot.py:93 | a header written with a negative total reads back with the total's absolute value |
| Codec.CloseLineSwallowed | cw3_kamikadze_bot.py:93 | a body that is one line of ')' followed by other non-digits is taken into the header, and the roster reads with the written total and no body |
| Codec.FindRowExact | cw3_kamikadze_bot.py:94 | the row scan succeeds exactly when the row pattern matches, at its group 1, and takes the rightmost user reference the pattern accepts |
| Codec.MatchRowExact | cw3_kamikadze_bot.py:94 | a line is read as a row exactly when the row pattern matches it, and the attack is group 1 of any match |
| Codec.RowLayoutParses | cw3_kamikadze_bot.py:94 | a line laid out as follows reads as its two numbers: non-digits, then digits, then at least two characters (the first a non-digit, none a line break), then the user reference, then digits, then a non-empty rest that starts with a non-digit and holds no '?' |
| Codec.RenderedRowMatches | cw3_kamikadze_bot.py:198 | a written row reads back through the row pattern as the member's attack and id, for any name without a '?' (row round trip) |
| Codec.AuthCodeExact | cw3_kamikadze_bot.py:74 | the auth-code scan succeeds exactly when the auth-code pattern matches, and returns group 1 of any match |
| Codec.AuthMessageCode | cw3_kamikadze_bot.py:74 | the game's message "Code N to authorize APP. This app will have the access to:…" yields N |
| Store.Lookup | cw3_kamikadze_bot.py:57-64 | the record of a user is present exactly when the user is in the table, and is the stored one |
| Store.UserStore.constructor | cw3_kamikadze_bot.py:32-38 | connecting opens the store over the rows already in the table |
| Store.UserStore.SetUser | cw3_kamikadze_bot.py:40-55 | the upsert answers true and leaves the table with the user's record replaced or inserted, nothing else changed |
| Store.UserStore.GetUser | cw3_kamikadze_bot.py:57-64 | returns the stored triple, or nothing exactly when the user is absent |
| Store.UserStore.GetAllUsers | cw3_kamikadze_bot.py:66-71 | lists every stored user exactly once with the stored name and attack |
| Store.SetThenGet | cw3_kamikadze_bot.py:40-64 | after an upsert the user reads back what was written and every other user reads back what they read before |
| Store.SetIdempotent | cw3_kamikadze_bot.py:40-55 | a repeated upsert changes nothing, and writing back the stored record changes nothing |
| Reconcile.Replace | cw3_kamikadze_bot.py:201-210 | the buffer the loop fills; characterised by ReplaceAt, OthersReplace and OwnCountReplace |
| Reconcile.Tally | cw3_kamikadze_bot.py:199-210 | the running total after the loop; characterised by TallyClosedForm |
| Reconcile.NewRows | cw3_kamikadze_bot.py:201-214 | the rows written, with the fresh row appended when the user had none; characterised by OthersKept, NewRowsOwnAreRow and OwnCountAfter |
| Reconcile.NewTotal | cw3_kamikadze_bot.py:199-214 | the total written, with the added attack counted once more for an appended row; characterised by GapPreserved and NewTotalIdempotent |
| Reconcile.OwnCountZero | cw3_kamikadze_bot.py:206 | the user has no rows exactly when no line reads as a row with the user's id |
| Reconcile.ReplaceAt | cw3_kamikadze_bot.py:201-210 | line by line, each row of the user becomes the fresh row and every other line stays where it stands |
| Reconcile.TallyUntouched | cw3_kamikadze_bot.py:212-214 | a body without rows of the user leaves the running total as it was |
| Reconcile.ReplaceUntouched | cw3_kamikadze_bot.py:201-210 | a body without rows of the user is copied into the buffer unchanged |
| Reconcile.TallyClosedForm | cw3_kamikadze_bot.py:199-210 | the total after the loop is the old total minus the attacks the user's rows displayed plus the added attack once per row |
| Reconcile.ReplaceDisplayed | cw3_kamikadze_bot.py:198-210 | the displayed attacks of the rewritten body change by exactly the amount the loop moves the total |
| Reconcile.GapPreserved | cw3_kamikadze_bot.py:199-219 | when the fresh row reads back as the user's row showing the added attack, the difference between the header total and the sum of the displayed attacks is the same before and after a press |
| Reconcile.OwnCountAfter | cw3_kamikadze_bot.py:201-214 | after a press the user has as many rows as before, or one when there were none |
| Reconcile.OthersKept | cw3_kamikadze_bot.py:201-214 | every line that is not a row of the user is kept, in its order |
| Reconcile.NewRowsOwnAreRow | cw3_kamikadze_bot.py:201-214 | after a press every row of the user is the fresh row |
| Reconcile.NewRowsIdempotent | cw3_kamikadze_bot.py:201-214 | rewriting the rewritten body with the same row changes nothing |
| Reconcile.NewTotalIdempotent | cw3_kamikadze_bot.py:199-214 | moving the total again over the rewritten body with the same attack leaves it where the first press put it |
| Reconcile.OwnAttackUniform | cw3_kamikadze_bot.py:198-210 | when every row of the user is the same row, their displayed attacks add up to that row's attack per row |
| Reconcile.VisitedStep | cw3_kamikadze_bot.py:201-210 | one loop pass keeps the loop's state a fold of the lines visited so far |
| Bot.BuildName | cw3_kamikadze_bot.py:185-194 | the name is the guild emoji, or the castle, followed by the user name; a guild tag raises AttributeError |
| Bot.Resolve | cw3_kamikadze_bot.py:159-196 | a profile step stores a record exactly when the user is linked, the profile arrives and the name builds; the record keeps the token and takes the new name and attack. Otherwise it names the reason: an unlinked user is `Aborted(NotLinked)`, a forbidden token `Aborted(Revoked)`, another API error `Aborted(Upstream)`, and a guild tag `Crashed(AttributeError)` |
| Bot.ResolveStable | cw3_kamikadze_bot.py:161-196 | repeating the profile step after it stored its record stores the same record |
| Bot.ProcUser | cw3_kamikadze_bot.py:159-199 | `proc_user`: on failure stops with the reason and leaves the table; on success stores the record, writes the fresh row and moves the total by the fresh attack minus `neg` |
| Bot.VisitLine | cw3_kamikadze_bot.py:201-210 | one pass of the loop keeps the loop invariant or stops with the profile step's failure and the table untouched |
| Bot.VisitRows | cw3_kamikadze_bot.py:201-210 | the loop stops only on the profile step's failure; otherwise it stored the record exactly when it met a row of the user, and its total and buffer are the reconciliation of the body |
| Bot.RosterLines | cw3_kamikadze_bot.py:201 | the lines of `m.group(2) or ""` that the loop visits; characterised by Strings.BodyLines and Strings.BodyLinesOfJoin |
| Bot.RosterText | cw3_kamikadze_bot.py:219 | the edited message: the header with the total, a line break, then the buffer; characterised by Codec.RenderedRosterParses |
| Bot.RewriteSpec | cw3_kamikadze_bot.py:201-221 | a parsed roster is edited exactly when the profile step succeeds; the table changes then, and only in the pressing user's record |
| Bot.Rewrite | cw3_kamikadze_bot.py:201-221 | the loop, the append for a user without rows and the edit compute exactly `RewriteSpec` |
| Bot.AddSpec | cw3_kamikadze_bot.py:149-153 | a press is refused as malformed exactly when the header pattern does not match, and then changes nothing |
| Bot.Add | cw3_kamikadze_bot.py:149-221 | the handler's outcome and new table are `AddSpec` of the old table |
| Bot.AddMalformedExact | cw3_kamikadze_bot.py:151-153 | a press is refused as malformed exactly when no header match exists |
| Bot.AddTouchesOnlyPresser | cw3_kamikadze_bot.py:196 | a press leaves every other user's record as it was |
| Bot.FirstJoin | cw3_kamikadze_bot.py:212-219 | the first press on the /suicide roster writes a roster with the member's attack as total and the member's row as its body |
| Bot.RowOneLine | cw3_kamikadze_bot.py:198 | a row written for a name without line breaks is one line |
| Bot.ReadableRow | cw3_kamikadze_bot.py:198 | such a row is non-empty and the row pattern reads it back as the member with the stored attack |
| Bot.NewRowsOneLine | cw3_kamikadze_bot.py:201-214 | the rows a press writes are non-empty single lines when the old ones and the fresh row are |
| Bot.AddIdempotent | cw3_kamikadze_bot.py:216-221 | pressing again on the edited roster with the same profile answer rewrites the same text and stores the same table, so the edit is the unchanged message whose refusal is ignored. This needs three things: the stored record is readable (non-negative id and attack, a name without '?' or line breaks), the written total is non-negative, and the written body has no ')' before its first digit |
| Bot.PyAdd | cw3_kamikadze_bot.py:199 | Python's `+` succeeds exactly when both operands are numbers or both are strings, adds numbers, and raises TypeError otherwise |
| Bot.Field | cw3_kamikadze_bot.py:63 | of the stored triple only index 2, the attack, is a number |
| Bot.FirstOwnAttack | cw3_kamikadze_bot.py:207 | the `neg` of the first profile step: the attack shown by the user's first row, wherever it stands, and 0 when the user has none |
| Bot.AddAsWritten | cw3_kamikadze_bot.py:199 | the handler as written never edits: it agrees with the corrected handler until that one would edit, and then raises TypeError after storing the record |
| Bot.AsWrittenFirstJoin | cw3_kamikadze_bot.py:199 | a linked member's first press on the /suicide roster edits in the corrected handler and raises TypeError as written |
| Bot.MeReply | cw3_kamikadze_bot.py:134-139 | /me refuses exactly the users not in the table |
| Bot.MeAfterAdd | cw3_kamikadze_bot.py:134-139 | after a press that edits, /me shows the member's new name and the fetched attack |
| Bot.AuthCodeFilter | cw3_kamikadze_bot.py:77-80 | a message passes exactly when forwarded from account 265204902 with text holding an auth code; a hidden forward raises AttributeError; a textless trusted forward raises TypeError |
| Bot.GameMessagePasses | cw3_kamikadze_bot.py:80 | the game's authorisation message forwarded from the game's account passes the filter |
| Bot.GrantToken | cw3_kamikadze_bot.py:120-132 | asks with the message's code; stores the granted token with an empty name and attack 0 only when there is a code and a grant, else leaves the table |
| Bot.GrantedThenAdd | cw3_kamikadze_bot.py:130 | after the token is stored the member's next press on a roster edits it and keeps the token and the fetched attack |
| Bot.ResetDelay | cw3_kamikadze_bot.py:143 | the sleep lies between 121 seconds and eight hours two minutes and wakes exactly two minutes after a battle |
| Bot.ResetDelayUnique | cw3_kamikadze_bot.py:143 | it is the only delay in that range that wakes two minutes after a battle |

## Left out

- aiogram dispatch and the Telegram I/O are not modelled: the replies, `query.answer` notices, the animation sent after linking, and the reply markup that the edit carries over. A press is modelled by its outcome and the new table.
- The SQL engine, its sessions and transactions are not modelled. The table is a map, and `connect`'s `CREATE TABLE IF NOT EXISTS` is the constructor over the existing rows.
- The Chat Wars API client, asyncio tasks and concurrency are not modelled. The API's answers are inputs, and two presses racing on one message are not modelled.
- Bot.Add: every profile request made during one press receives the same answer `fetch`. The real client could answer a second request differently. So the model does not show a press where a first fetch succeeds and a later one fails. In the code that press stores the record and then aborts without editing. The model's "not edited, so the table is unchanged" holds only under one answer per press.
- Bot.AddSpec: a roster with two rows of the pressing user makes the code fetch the profile once per row. With one answer this is modelled as the same record stored each time.
- The texts of the error replies are not modelled. Neither are the name in the mention, the stderr printing of API errors, or the difference between `NoSuchUserError` and other API errors when asking for an auth code. All of these end as `Aborted(NotLinked)` or `Aborted(Upstream)` without editing.
- The isinstance checks in `set_user` and `get_user` are not modelled: the types already rule those cases out.
- `PrefixCheckFilter` is not modelled. Neither are `start`, `run`, `amain`, `main` or `setup.py`.
- `__reset`'s endless loop is not modelled. Neither is its clear of `__current_battle`, which is never assigned and so would raise AttributeError. Only the delay is modelled.
- Bot.ResetDelay: `now` is the already-rounded Unix time. Floating-point timestamps and `round` are not modelled.
- `\d` and `\D` are limited to ASCII digits; Python's `\d` also accepts other Unicode digits.
- `html_text` re-rendering of the message's entities is not modelled. The message text is taken as the HTML the bot wrote.
- Codec.RenderedRowMatches: requires that the name holds no '?'. A '?' in the name would let the row pattern's backtracking pick a different user reference.
- The dot the auth-code pattern leaves unescaped after the application name is modelled as what it is: any character but a line break.

## Findings

| source | as written | input that shows it | evidently intended | confidence | as-written member | corrected member |
|---|---|---|---|---|---|---|
| cw3_kamikadze_bot.py:199 | `atk = atk - neg + u[1]` adds the stored name (a string) to the integer total, which raises TypeError right after the record is stored and the row written, so no press ever edits the roster | member 7, linked with token "token", presses the empty /suicide roster and the profile answer is castle 🦅, no guild, user name "Ann", attack 10 | add the fetched attack `pr.atk`, the value the fresh row displays, so the header total moves by the row's change | not executed | Bot.AsWrittenFirstJoin | Bot.Add |

=== FILE: bot.dfy ===
/**
 * The bot's handlers. The "add" button callback re-reads the roster message, rewrites the
 * pressing user's rows from a fresh game profile and edits the message; the auth-code handler
 * stores the API token the game grants; a timer computes how long to sleep until two minutes
 * after the next battle. The game API's answers and the clock are inputs; the user table is a
 * `Store.UserStore`.
 */
module Bot {
  import opened Wrappers
  import opened Strings
  import opened Codec
  import opened Store
  import opened Reconcile

  /** The Python exceptions the modelled code can raise. */
  datatype PyError = AttributeError | TypeError

  datatype Guild = Guild(emoji: Option<string>, tag: Option<string>)

  /** The part of a game profile the handler uses; `castle` is its text form. */
  datatype Profile = Profile(atk: int, castle: string, guild: Option<Guild>, userName: string)

  /** The game API's answer to the profile request made with the user's token. */
  datatype Fetch = Fetched(profile: Profile) | Forbidden | ApiError

  /** Why the handler stopped without editing: no stored token, a revoked token, an API error. */
  datatype AbortReason = NotLinked | Revoked | Upstream

  /** How one press of the button ends. */
  datatype Outcome = Malformed | Aborted(reason: AbortReason) | Crashed(error: PyError) | Edited(text: string)

  // ---------------------------------------------------------------------------------------
  // The profile step
  // ---------------------------------------------------------------------------------------

  /** What the name starts with: the guild emoji when the user's guild has one, else the castle. */
  function Badge(pr: Profile): string {
    if pr.guild.Some? && pr.guild.value.emoji.Some? then pr.guild.value.emoji.value else pr.castle
  }

  /** The display name. A guild tag sends the code to `pr.guid`, which does not exist. */
  function BuildName(pr: Profile): (r: Result<string, PyError>)
    ensures r.Failure? <==> pr.guild.Some? && pr.guild.value.tag.Some?
    ensures r.Failure? ==> r.error == AttributeError
    ensures r.Success? ==>
      |r.value| == |Badge(pr)| + |pr.userName| && r.value[..|Badge(pr)|] == Badge(pr) && r.value[|Badge(pr)|..] == pr.userName
  {
    if pr.guild.None? then Success(pr.castle + pr.userName)
    else
      var name := if pr.guild.value.emoji.None? then pr.castle else pr.guild.value.emoji.value;
      if pr.guild.value.tag.Some? then Failure(AttributeError)
      else Success(name + pr.userName)
  }

  /** What one profile step ends in: the record it stores, or the outcome the handler stops with. */
  function Resolve(records: map<int, UserRecord>, uid: int, fetch: Fetch): (r: Result<UserRecord, Outcome>)
    ensures r.Failure? ==> r.error.Aborted? || r.error.Crashed?
    ensures r.Failure? && r.error == Aborted(NotLinked) <==> uid !in records
    ensures uid in records && fetch.Forbidden? ==> r == Failure(Aborted(Revoked))
    ensures uid in records && fetch.ApiError? ==> r == Failure(Aborted(Upstream))
    ensures uid in records && fetch.Fetched? && BuildName(fetch.profile).Failure? ==> r == Failure(Crashed(AttributeError))
    ensures r.Success? <==> uid in records && fetch.Fetched? && BuildName(fetch.profile).Success?
    ensures r.Success? ==> r.value == UserRecord(records[uid].token, BuildName(fetch.profile).value, fetch.profile.atk)
  {
    match Lookup(records, uid)
    case None => Failure(Aborted(NotLinked))
    case Some(u) =>
      match fetch
      case Forbidden => Failure(Aborted(Revoked))
      case ApiError => Failure(Aborted(Upstream))
      case Fetched(pr) =>
        match BuildName(pr)
        case Failure(e) => Failure(Crashed(e))
        case Success(name) => Success(UserRecord(u.token, name, pr.atk))
  }

  /** Once the step has stored its record, repeating it with the same answer stores the same. */
  lemma ResolveStable(records: map<int, UserRecord>, uid: int, fetch: Fetch)
    requires Resolve(records, uid, fetch).Success?
    ensures var rec := Resolve(records, uid, fetch).value;
      Resolve(records[uid := rec], uid, fetch) == Success(rec)
  {
    var rec := Resolve(records, uid, fetch).value;
    assert Lookup(records[uid := rec], uid) == Some(rec);
  }

  /** The row written for a member. */
  function RowOf(rec: UserRecord, uid: int): string {
    RenderRow(rec.atk, uid, rec.name)
  }

  /** `proc_user(neg)`: reads the user's record, fetches the profile, stores the refreshed record,
      writes the fresh row into the buffer and moves the running total. `stop` is the outcome
      the handler returns with when the step fails. */
  method ProcUser(db: UserStore, uid: int, fetch: Fetch, neg: int, atk: int, buf: string)
    returns (stop: Option<Outcome>, u: Option<UserRecord>, atk': int, buf': string)
    modifies db
    ensures u == Lookup(old(db.records), uid)
    ensures Resolve(old(db.records), uid, fetch).Failure? ==>
      stop == Some(Resolve(old(db.records), uid, fetch).error) && db.records == old(db.records)
    ensures Resolve(old(db.records), uid, fetch).Success? ==>
      var rec := Resolve(old(db.records), uid, fetch).value;
      && stop.None? && db.records == old(db.records)[uid := rec]
      && atk' == atk - neg + rec.atk && buf' == buf + RowOf(rec, uid) + "\n"
  {
    atk', buf' := atk, buf;
    u := db.GetUser(uid);
    if u.None? {
      return Some(Aborted(NotLinked)), u, atk', buf';
    }
    match fetch {
      case Forbidden =>
        return Some(Aborted(Revoked)), u, atk', buf';
      case ApiError =>
        return Some(Aborted(Upstream)), u, atk', buf';
      case Fetched(pr) =>
        var name := BuildName(pr);
        if name.Failure? {
          return Some(Crashed(name.error)), u, atk', buf';
        }
        var _ := db.SetUser(uid, UserRecord(u.value.token, name.value, pr.atk));
        buf' := buf + RenderRow(pr.atk, uid, name.value) + "\n";
        // The source adds `u[1]` here, the stored name (see AddAsWritten); the model adds the
        // attack the fresh row displays, `pr.atk`.
        atk' := atk - neg + pr.atk;
        stop := None;
    }
  }

  // ---------------------------------------------------------------------------------------
  // The "add" button
  // ---------------------------------------------------------------------------------------

  /** The roster lines the handler visits: the body after the header, or nothing. */
  function RosterLines(m: SquadMatch): seq<string> {
    BodyLines(m.body.GetOr(""))
  }

  /** The message a successful press writes: the new total in the header, then the new rows. */
  function RosterText(total: int, rows: seq<string>): string {
    RenderHeader(total) + "\n" + JoinLines(rows)
  }

  /** What the rewrite of a parsed roster does: the outcome and the user table afterwards. It
      edits exactly when the profile step succeeds; the table changes only then, and only in the
      pressing user's record. */
  function RewriteSpec(read: RowReader, records: map<int, UserRecord>, total: nat, lines: seq<string>, uid: int, fetch: Fetch)
    : (r: (Outcome, map<int, UserRecord>))
    ensures r.0 != Malformed
    ensures r.0.Edited? <==> Resolve(records, uid, fetch).Success?
    ensures !r.0.Edited? ==> r.1 == records && r.0 == Resolve(records, uid, fetch).error
    ensures r.0.Edited? ==> r.1 == records[uid := Resolve(records, uid, fetch).value]
  {
    match Resolve(records, uid, fetch)
    case Failure(stop) => (stop, records)
    case Success(rec) =>
      (Edited(RosterText(NewTotal(read, total, lines, uid, rec.atk), NewRows(read, lines, uid, RowOf(rec, uid)))),
       records[uid := rec])
  }

  /** What one press does: nothing but `Malformed` when the message is not a roster, otherwise
      the rewrite of its rows. */
  function AddSpec(records: map<int, UserRecord>, text: string, uid: int, fetch: Fetch): (r: (Outcome, map<int, UserRecord>))
    ensures r.0 == Malformed <==> ParseSquad(text).None?
    ensures r.0 == Malformed ==> r.1 == records
  {
    match ParseSquad(text)
    case None => (Malformed, records)
    case Some(m) => RewriteSpec(MatchRow, records, m.total, RosterLines(m), uid, fetch)
  }

  /** `__add`: the button callback. A message edit whose text equals the old one is refused by
      Telegram and the refusal is ignored, so the outcome is `Edited` either way. */
  method Add(db: UserStore, text: string, uid: int, fetch: Fetch) returns (outcome: Outcome)
    modifies db
    ensures (outcome, db.records) == AddSpec(old(db.records), text, uid, fetch)
  {
    var m := ParseSquad(text);
    if m.None? {
      return Malformed;
    }
    outcome := Rewrite(MatchRow, db, m.value.total, RosterLines(m.value), uid, fetch);
  }

  /** The rest of `__add` once the roster has parsed: the rows are visited, a row is appended
      when none belonged to the user, and the header gets the running total. */
  method Rewrite(read: RowReader, db: UserStore, total: nat, lines: seq<string>, uid: int, fetch: Fetch) returns (outcome: Outcome)
    modifies db
    ensures (outcome, db.records) == RewriteSpec(read, old(db.records), total, lines, uid, fetch)
  {
    ghost var start := db.records;
    ghost var R := Resolve(start, uid, fetch);
    var stop, u, atk, buf := VisitRows(read, db, total, lines, uid, fetch);
    if stop.Some? {
      return stop.value;
    }
    if u.None? {
      stop, u, atk, buf := ProcUser(db, uid, fetch, 0, atk, buf);
      if stop.Some? {
        return stop.value;
      }
      ghost var newRow := RowOf(R.value, uid);
      TallyUntouched(read, total, lines, uid, R.value.atk);
      ReplaceUntouched(read, lines, uid, newRow);
      JoinLinesSnoc(lines, newRow);
      assert NewRows(read, lines, uid, newRow) == lines + [newRow];
    } else {
      assert NewRows(read, lines, uid, RowOf(R.value, uid)) == Replace(read, lines, uid, RowOf(R.value, uid));
    }
    assert atk == NewTotal(read, total, lines, uid, R.value.atk);
    assert buf == JoinLines(NewRows(read, lines, uid, RowOf(R.value, uid)));
    assert db.records == start[uid := R.value];
    outcome := Edited(RenderHeader(atk) + "\n" + buf);
  }

  /** The loop of `__add` over the roster lines: each row of the user is rewritten from the
      profile and moves the running total, every other line is copied. `u` is the stored record
      once a row of the user has been met. */
  method VisitRows(read: RowReader, db: UserStore, total: nat, lines: seq<string>, uid: int, fetch: Fetch)
    returns (stop: Option<Outcome>, u: Option<UserRecord>, atk: int, buf: string)
    modifies db
    ensures var R := Resolve(old(db.records), uid, fetch);
      stop.Some? ==> R.Failure? && stop.value == R.error && db.records == old(db.records)
    ensures stop.None? ==> (u.Some? <==> OwnCount(read, lines, uid) > 0)
    ensures stop.None? && u.None? ==> db.records == old(db.records) && atk == total && buf == JoinLines(lines)
    ensures var R := Resolve(old(db.records), uid, fetch);
      stop.None? && u.Some? ==>
        && R.Success? && db.records == old(db.records)[uid := R.value]
        && atk == Tally(read, total, lines, uid, R.value.atk)
        && buf == JoinLines(Replace(read, lines, uid, RowOf(R.value, uid)))
  {
    atk, u, buf, stop := total, None, "", None;
    ghost var start := db.records;
    ProgressStart(read, start, fetch, total, uid);
    var i := 0;
    ghost var seen: seq<string> := [];
    while i < |lines|
      invariant 0 <= i <= |lines| && seen == lines[..i] && stop.None?
      invariant Progress(read, start, fetch, total, seen, uid, db.records, u, atk, buf)
    {
      var row := lines[i];
      PrefixSnoc(lines, i);
      stop, u, atk, buf := VisitLine(read, db, uid, fetch, row, u, atk, buf, start, total, seen);
      if stop.Some? {
        return;
      }
      i := i + 1;
      seen := seen + [row];
    }
    assert seen == lines;
    ProgressDone(read, start, fetch, total, lines, uid, db.records, u, atk, buf);
  }

  /** The row a successful profile step writes, and the attack it adds. */
  function Fresh(R: Result<UserRecord, Outcome>, uid: int): string {
    if R.Success? then RowOf(R.value, uid) else ""
  }

  function Gain(R: Result<UserRecord, Outcome>): int {
    if R.Success? then R.value.atk else 0
  }

  /** What the loop has established after visiting the lines `seen`: the table holds the user's
      refreshed record exactly when a row of the user was met, and the total and the buffer are
      the fold of those lines. */
  ghost predicate Progress(read: RowReader, start: map<int, UserRecord>, fetch: Fetch, total: int, seen: seq<string>,
                           uid: int, records: map<int, UserRecord>, u: Option<UserRecord>, atk: int, buf: string)
  {
    var R := Resolve(start, uid, fetch);
    && (u.Some? ==> R.Success?)
    && records == (if u.None? then start else start[uid := R.value])
    && Visited(read, total, seen, uid, Fresh(R, uid), Gain(R), u.Some?, atk, buf)
  }

  lemma ProgressStart(read: RowReader, start: map<int, UserRecord>, fetch: Fetch, total: int, uid: int)
    ensures Progress(read, start, fetch, total, [], uid, start, None, total, "")
  {
  }

  /** After the last line: the state the loop leaves, stated on the whole body. */
  lemma ProgressDone(read: RowReader, start: map<int, UserRecord>, fetch: Fetch, total: int, lines: seq<string>,
                     uid: int, records: map<int, UserRecord>, u: Option<UserRecord>, atk: int, buf: string)
    requires Progress(read, start, fetch, total, lines, uid, records, u, atk, buf)
    ensures u.Some? <==> OwnCount(read, lines, uid) > 0
    ensures u.None? ==> records == start && atk == total && buf == JoinLines(lines)
    ensures var R := Resolve(start, uid, fetch);
      u.Some? ==>
        && R.Success? && records == start[uid := R.value]
        && atk == Tally(read, total, lines, uid, R.value.atk)
        && buf == JoinLines(Replace(read, lines, uid, RowOf(R.value, uid)))
  {
    var R := Resolve(start, uid, fetch);
    if u.None? {
      TallyUntouched(read, total, lines, uid, Gain(R));
      ReplaceUntouched(read, lines, uid, Fresh(R, uid));
    }
  }

  /** One pass of the loop: a row of the user goes through the profile step, any other line is
      copied into the buffer. */
  method VisitLine(read: RowReader, db: UserStore, uid: int, fetch: Fetch, row: string,
                   u: Option<UserRecord>, atk: int, buf: string,
                   ghost start: map<int, UserRecord>, ghost total: int, ghost seen: seq<string>)
    returns (stop: Option<Outcome>, u': Option<UserRecord>, atk': int, buf': string)
    requires Progress(read, start, fetch, total, seen, uid, db.records, u, atk, buf)
    modifies db
    ensures var R := Resolve(start, uid, fetch);
      stop.Some? ==> R.Failure? && stop.value == R.error && db.records == start
    ensures stop.None? ==> Progress(read, start, fetch, total, seen + [row], uid, db.records, u', atk', buf')
  {
    ghost var R := Resolve(start, uid, fetch);
    var m := read(row);
    if m.Some? && m.value.uid == uid {
      if u.Some? {
        ResolveStable(start, uid, fetch);
        SetIdempotent(start, uid, R.value);
      }
      stop, u', atk', buf' := ProcUser(db, uid, fetch, m.value.atk, atk, buf);
    } else {
      stop, u', atk', buf' := None, u, atk, buf + row + "\n";
    }
    if stop.None? {
      VisitedStep(read, total, seen, row, uid, Fresh(R, uid), Gain(R), u.Some?, atk, buf, u'.Some?, atk', buf');
    }
  }

  /** One more element of a prefix. */
  lemma PrefixSnoc(xs: seq<string>, i: nat)
    requires i < |xs|
    ensures xs[..i + 1] == xs[..i] + [xs[i]]
  {
  }

  // ---------------------------------------------------------------------------------------
  // What a press does to a roster
  // ---------------------------------------------------------------------------------------

  /** The header pattern decides alone whether a press is refused as `Malformed`. */
  lemma AddMalformedExact(records: map<int, UserRecord>, text: string, uid: int, fetch: Fetch)
    ensures AddSpec(records, text, uid, fetch).0 == Malformed <==>
      forall o: nat, a: nat, b: nat, c: nat :: !HeaderAt(text, o, a, b, c)
  {
    ParseSquadExact(text);
  }

  /** A press changes no user's record but the pressing user's. */
  lemma AddTouchesOnlyPresser(records: map<int, UserRecord>, text: string, uid: int, fetch: Fetch, other: int)
    requires other != uid
    ensures Lookup(AddSpec(records, text, uid, fetch).1, other) == Lookup(records, other)
  {
    var r := AddSpec(records, text, uid, fetch);
    if r.0.Edited? {
      SetThenGet(records, uid, Resolve(records, uid, fetch).value, other);
    }
  }

  /** The first press on the roster /suicide posts: the total becomes the member's attack and the
      body is the member's row. */
  lemma FirstJoin(records: map<int, UserRecord>, uid: int, fetch: Fetch)
    requires Resolve(records, uid, fetch).Success?
    ensures var rec := Resolve(records, uid, fetch).value;
      AddSpec(records, EmptyRoster, uid, fetch) == (Edited(RosterText(rec.atk, [RowOf(rec, uid)])), records[uid := rec])
  {
    var rec := Resolve(records, uid, fetch).value;
    EmptyRosterParses();
    assert Split("") == [""];
    assert RosterLines(SquadMatch(0, None)) == [];
    assert AddSpec(records, EmptyRoster, uid, fetch) == RewriteSpec(MatchRow, records, 0, [], uid, fetch);
    assert NewTotal(MatchRow, 0, [], uid, rec.atk) == rec.atk;
    assert NewRows(MatchRow, [], uid, RowOf(rec, uid)) == [RowOf(rec, uid)];
  }

  /** A row the handler can read back: a non-negative attack and id, and a name without the
      '?' the row pattern's user reference needs and without a line break. */
  predicate Readable(rec: UserRecord, uid: int) {
    uid >= 0 && rec.atk >= 0 && '?' !in rec.name && '\n' !in rec.name
  }

  /** Decimal digits hold no line break. */
  lemma DigitsOneLine(s: string)
    requires AllDigits(s)
    ensures '\n' !in s
  {
  }

  lemma OneLine(a: string, b: string, c: string, d: string, e: string, f: string, g: string)
    requires '\n' !in a && '\n' !in b && '\n' !in c && '\n' !in d && '\n' !in e && '\n' !in f && '\n' !in g
    ensures '\n' !in a + b + c + d + e + f + g
  {
  }

  /** The fixed parts of a row hold no line break. */
  lemma LinkOneLine(name: string)
    requires '\n' !in name
    ensures '\n' !in RowOpen && '\n' !in RowLinkOpen && '\n' !in Marker && '\n' !in RowLabel(name)
  {
    assert forall i :: 0 <= i < |RowLinkOpen| ==> RowLinkOpen[i] != '\n';
    assert forall i :: 0 <= i < |Marker| ==> Marker[i] != '\n';
  }

  /** The row written for a name without line breaks is a single line. */
  lemma RowOneLine(atk: nat, uid: nat, name: string)
    requires '\n' !in name
    ensures '\n' !in RenderRow(atk, uid, name)
  {
    var d := NatToDecimal(atk);
    RenderedRowSplit(atk, uid, name);
    DigitsOneLine(d);
    DigitsOneLine(NatToDecimal(uid));
    assert '\n' !in Spaces(RowPadding(d));
    LinkOneLine(name);
    OneLine(RowOpen, Spaces(RowPadding(d)), d, RowLinkOpen, Marker, NatToDecimal(uid), RowLabel(name));
  }

  /** A readable row is a non-empty single line, and the row pattern reads it as its member. */
  lemma ReadableRow(rec: UserRecord, uid: int)
    requires Readable(rec, uid)
    ensures var row := RowOf(rec, uid);
      row != "" && '\n' !in row && Shows(MatchRow, row, uid, rec.atk)
  {
    RenderedRowMatches(rec.atk, uid, rec.name);
    RowOneLine(rec.atk, uid, rec.name);
  }

  /** The rows a press writes are non-empty single lines when the body's lines and the row are. */
  lemma NewRowsOneLine(lines: seq<string>, uid: int, row: string)
    requires forall i :: 0 <= i < |lines| ==> lines[i] != "" && '\n' !in lines[i]
    requires row != "" && '\n' !in row
    ensures var n := NewRows(MatchRow, lines, uid, row);
      forall i :: 0 <= i < |n| ==> n[i] != "" && '\n' !in n[i]
  {
    ReplaceAt(MatchRow, lines, uid, row);
  }

  /** Pressing the button again on the edited roster, with the same profile answer, rewrites the
      same text and stores the same records; the edit is then the unchanged message Telegram
      refuses and the handler ignores. This needs the written total to be non-negative and the
      written body not to start with a ')' before its first digit, so that the header reads back. */
  lemma AddIdempotent(records: map<int, UserRecord>, text: string, uid: int, fetch: Fetch)
    requires ParseSquad(text).Some? && Resolve(records, uid, fetch).Success?
    requires Readable(Resolve(records, uid, fetch).value, uid)
    requires var m := ParseSquad(text).value;
      var rec := Resolve(records, uid, fetch).value;
      && NewTotal(MatchRow, m.total, RosterLines(m), uid, rec.atk) >= 0
      && NoCloseBeforeDigit(JoinLines(NewRows(MatchRow, RosterLines(m), uid, RowOf(rec, uid))))
    ensures AddSpec(records, text, uid, fetch).0.Edited?
    ensures var r := AddSpec(records, text, uid, fetch);
      AddSpec(r.1, r.0.text, uid, fetch) == r
  {
    var m := ParseSquad(text).value;
    var rec := Resolve(records, uid, fetch).value;
    var row := RowOf(rec, uid);
    var lines := RosterLines(m);
    var n := NewRows(MatchRow, lines, uid, row);
    var t := NewTotal(MatchRow, m.total, lines, uid, rec.atk);
    var r1 := records[uid := rec];
    assert AddSpec(records, text, uid, fetch) == (Edited(RosterText(t, n)), r1);
    ReadableRow(rec, uid);
    NewRowsOneLine(lines, uid, row);
    BodyLinesOfJoin(n);
    RenderedRosterParses(t, JoinLines(n));
    ResolveStable(records, uid, fetch);
    NewRowsIdempotent(MatchRow, lines, uid, row);
    NewTotalIdempotent(MatchRow, m.total, lines, uid, row, rec.atk);
    SetIdempotent(records, uid, rec);
    assert AddSpec(r1, RosterText(t, n), uid, fetch) == RewriteSpec(MatchRow, r1, t, n, uid, fetch);
  }

  // ---------------------------------------------------------------------------------------
  // The running total as written
  // ---------------------------------------------------------------------------------------

  /** The two kinds of Python value line 199 adds. */
  datatype PyValue = PyInt(i: int) | PyStr(s: string)

  /** Python's `+`: numbers add, strings concatenate, a number and a string raise TypeError. */
  function PyAdd(x: PyValue, y: PyValue): (r: Result<PyValue, PyError>)
    ensures r.Success? <==> x.PyInt? == y.PyInt?
    ensures r.Failure? ==> r.error == TypeError
    ensures x.PyInt? && y.PyInt? ==> r.Success? && r.value.PyInt? && r.value.i - y.i == x.i
  {
    match (x, y)
    case (PyInt(a), PyInt(b)) => Success(PyInt(a + b))
    case (PyStr(a), PyStr(b)) => Success(PyStr(a + b))
    case _ => Failure(TypeError)
  }

  /** The tuple the store returns for a user, indexed as the handler indexes it. */
  function Field(u: UserRecord, k: nat): (v: PyValue)
    requires k < 3
    ensures v.PyInt? <==> k == 2
  {
    if k == 0 then PyStr(u.token) else if k == 1 then PyStr(u.name) else PyInt(u.atk)
  }

  /** The attack shown by the first row of `uid`, the `neg` of the first profile step; 0 when
      there is none and the step runs after the loop. */
  function FirstOwnAttack(lines: seq<string>, uid: int): (r: nat)
    ensures (forall i :: 0 <= i < |lines| ==> !IsOwn(MatchRow, lines[i], uid)) ==> r == 0
    ensures forall i :: 0 <= i < |lines| && IsOwn(MatchRow, lines[i], uid) ==>
      (forall j :: 0 <= j < i ==> !IsOwn(MatchRow, lines[j], uid)) ==> r == Displayed(MatchRow, lines[i])
  {
    if lines == [] then 0
    else if IsOwn(MatchRow, lines[0], uid) then Displayed(MatchRow, lines[0])
    else
      assert forall i :: 0 <= i < |lines| - 1 ==> lines[1..][i] == lines[i + 1];
      FirstOwnAttack(lines[1..], uid)
  }

  /** `__add` as written. The first profile step that succeeds has already stored the record
      when line 199 adds the stored name, `u[1]`, to the running total; Python raises TypeError
      there, so no press ever reaches the edit. Up to that step it agrees with `AddSpec`. */
  function AddAsWritten(records: map<int, UserRecord>, text: string, uid: int, fetch: Fetch)
    : (r: (Outcome, map<int, UserRecord>))
    ensures !r.0.Edited?
    ensures !AddSpec(records, text, uid, fetch).0.Edited? ==> r == AddSpec(records, text, uid, fetch)
    ensures AddSpec(records, text, uid, fetch).0.Edited? ==> r == (Crashed(TypeError), AddSpec(records, text, uid, fetch).1)
  {
    match ParseSquad(text)
    case None => (Malformed, records)
    case Some(m) =>
      match Resolve(records, uid, fetch)
      case Failure(stop) => (stop, records)
      case Success(rec) =>
        var before := records[uid];
        match PyAdd(PyInt(m.total - FirstOwnAttack(RosterLines(m), uid)), Field(before, 1))
        case Failure(e) => (Crashed(e), records[uid := rec])
        case Success(_) => assert false; (Malformed, records)
  }

  /** A linked member's first press on the /suicide roster: the corrected handler writes the
      member's row, the handler as written stores the record and then raises TypeError. */
  lemma AsWrittenFirstJoin()
    ensures var records := map[7 := UserRecord("token", "", 0)];
      var fetch := Fetched(Profile(10, "\U{1F985}", None, "Ann"));
      && AddSpec(records, EmptyRoster, 7, fetch).0.Edited?
      && AddAsWritten(records, EmptyRoster, 7, fetch) == (Crashed(TypeError), records[7 := UserRecord("token", "\U{1F985}" + "Ann", 10)])
  {
    var records := map[7 := UserRecord("token", "", 0)];
    var fetch := Fetched(Profile(10, "\U{1F985}", None, "Ann"));
    var rec := UserRecord("token", "\U{1F985}" + "Ann", 10);
    assert Resolve(records, 7, fetch) == Success(rec);
    FirstJoin(records, 7, fetch);
    assert AddSpec(records, EmptyRoster, 7, fetch).1 == records[7 := rec];
  }

  // ---------------------------------------------------------------------------------------
  // /me
  // ---------------------------------------------------------------------------------------

  const MeRefusal := "\U{0422}" + "ы слишком сильно любишь жить, чтобы мне была интересна информация про тебя"

  /** `__get_me`'s reply: the stored name and attack, or a refusal for a user never linked. */
  function MeReply(records: map<int, UserRecord>, uid: int): (r: string)
    ensures r == MeRefusal <==> uid !in records
  {
    match Lookup(records, uid)
    case None => MeRefusal
    case Some(u) =>
      var r := "<code>" + u.name + " " + Swords + IntToDecimal(u.atk) + "</code>";
      assert r[0] == '<' && MeRefusal[0] == '\U{0422}';
      r
  }

  /** After a press that edits the roster, /me shows the name and attack the member's row shows. */
  lemma MeAfterAdd(records: map<int, UserRecord>, text: string, uid: int, fetch: Fetch)
    requires AddSpec(records, text, uid, fetch).0.Edited?
    ensures var rec := Resolve(records, uid, fetch).value;
      MeReply(AddSpec(records, text, uid, fetch).1, uid)
        == "<code>" + rec.name + " " + Swords + IntToDecimal(fetch.profile.atk) + "</code>"
  {
    var rec := Resolve(records, uid, fetch).value;
    SetThenGet(records, uid, rec, uid);
  }

  // ---------------------------------------------------------------------------------------
  // Linking an account
  // ---------------------------------------------------------------------------------------

  /** The game's bot account, the only sender whose forwarded messages are trusted. */
  const TrustedSender := 265204902

  /** Where a message came from: sent directly, forwarded from an account that hides itself,
      or forwarded from the account `id`. */
  datatype Forward = NotForwarded | HiddenSender | ForwardedFrom(id: int)

  /** A message as the filter and the handler see it; `text` is absent for media. */
  datatype Message = Message(fromId: int, text: Option<string>, forward: Forward)

  /** `AuthCodeFilter.check`: a forward from the game's account carrying an authorisation code.
      A forward from a hidden account has no `forward_from` (AttributeError); a trusted forward
      without text hands `None` to the pattern (TypeError). */
  function AuthCodeFilter(msg: Message): (r: Result<bool, PyError>)
    ensures r == Success(true) <==>
      msg.forward == ForwardedFrom(TrustedSender) && msg.text.Some? && AuthCode(msg.text.value).Some?
    ensures r == Failure(AttributeError) <==> msg.forward.HiddenSender?
    ensures r == Failure(TypeError) <==> msg.forward == ForwardedFrom(TrustedSender) && msg.text.None?
  {
    match msg.forward
    case NotForwarded => Success(false)
    case HiddenSender => Failure(AttributeError)
    case ForwardedFrom(id) =>
      if id != TrustedSender then Success(false)
      else if msg.text.None? then Failure(TypeError)
      else Success(AuthCode(msg.text.value).Some?)
  }

  /** The game's authorisation message, forwarded from the game's account, passes the filter. */
  lemma GameMessagePasses(fromId: int, code: string, app: string, rest: string)
    requires |code| > 0 && AllDigits(code)
    requires |app| > 0 && '.' !in app
    ensures AuthCodeFilter(Message(fromId, Some(AuthHead + code + AuthMid + app + "." + AuthTail + rest),
                                   ForwardedFrom(TrustedSender))) == Success(true)
  {
    AuthMessageCode(code, app, rest);
  }

  /** The game API's answer to the token request. */
  datatype Grant = Granted(token: string) | Refused

  /** `__grant_token`: asks the game for a token with the code found in the message (`asked`)
      and, when the game grants one, stores it for the sender with an empty name and attack 0.
      A message without a code, or a refusal, leaves the table as it was. */
  method GrantToken(db: UserStore, fromId: int, text: string, grant: Grant) returns (asked: Option<string>)
    modifies db
    ensures asked == AuthCode(text)
    ensures asked.Some? && grant.Granted? ==> db.records == old(db.records)[fromId := UserRecord(grant.token, "", 0)]
    ensures asked.None? || grant.Refused? ==> db.records == old(db.records)
  {
    asked := AuthCode(text);
    if asked.None? {
      return;
    }
    if grant.Refused? {
      return;
    }
    var _ := db.SetUser(fromId, UserRecord(grant.token, "", 0));
  }

  /** Once a token is stored the member's next press is no longer refused as unlinked: the
      profile request is made with the stored token, and an answer without a guild tag edits the
      roster, keeping the token. */
  lemma GrantedThenAdd(records: map<int, UserRecord>, uid: int, token: string, text: string, pr: Profile)
    requires ParseSquad(text).Some?
    requires pr.guild.None? || pr.guild.value.tag.None?
    ensures var after := AddSpec(records[uid := UserRecord(token, "", 0)], text, uid, Fetched(pr));
      after.0.Edited? && after.1[uid].token == token && after.1[uid].atk == pr.atk
  {
    var linked := records[uid := UserRecord(token, "", 0)];
    assert Lookup(linked, uid) == Some(UserRecord(token, "", 0));
  }

  // ---------------------------------------------------------------------------------------
  // The battle timer
  // ---------------------------------------------------------------------------------------

  /** Battles come every eight hours, six hours after each multiple of eight hours since the
      epoch. */
  const BattlePeriod := 8 * 3600
  const BattleOffset := 6 * 3600

  /** How long `__reset` sleeps at Unix time `now` (seconds, rounded): until two minutes after
      the first battle that begins after `now`, even when the battle that has just begun is not
      yet two minutes old. */
  function ResetDelay(now: int): (r: int)
    ensures 121 <= r <= BattlePeriod + 120
    ensures (now + r - BattleOffset) % BattlePeriod == 120
  {
    BattlePeriod + 120 - (now - BattleOffset) % BattlePeriod
  }

  /** The delay is the only one in its range that wakes two minutes after a battle. */
  lemma ResetDelayUnique(now: int, d: int)
    requires 121 <= d <= BattlePeriod + 120
    requires (now + d - BattleOffset) % BattlePeriod == 120
    ensures d == ResetDelay(now)
  {
    var x := now - BattleOffset;
    var r := ResetDelay(now);
    assert (x + d) % BattlePeriod == (x + r) % BattlePeriod;
    assert d - r == (x + d) - (x + d) % BattlePeriod - ((x + r) - (x + r) % BattlePeriod);
    assert (x + d) - (x + d) % BattlePeriod == BattlePeriod * ((x + d) / BattlePeriod);
    assert (x + r) - (x + r) % BattlePeriod == BattlePeriod * ((x + r) / BattlePeriod);
  }
}

=== FILE: codec.dfy ===
/**
 * The squad roster message. Its header and row recognisers are the bot's two regular
 * expressions written out as scans that make the same choices as Python's backtracking
 * matcher; each is specified by a ghost predicate saying where the pattern matches, and the
 * scan is proved to find the match the matcher reports. The renderers build the header and
 * the row the "add" handler writes, and the same module holds the recogniser of the game's
 * authorisation-code message.
 */
module Codec {
  import opened Wrappers
  import opened Strings

  /** The attack emblem, U+2694 U+FE0F. */
  const Swords := "\U{2694}\U{FE0F}"

  const HeaderTitle := "<b>Отряд суицидников "
  const HeaderMid := Swords + "</u>"

  /** The roster the /suicide command posts before anyone has joined. */
  const EmptyRoster := "<b>Отряд суицидников (<u>0\U{2694}\U{FE0F}</u>):</b>"

  /** The header line the "add" handler writes, with the running total. */
  function RenderHeader(total: int): string {
    HeaderTitle + "(" + "<u>" + IntToDecimal(total) + HeaderMid + ")" + ":</b>"
  }

  /** The user reference inside a row's link. */
  const Marker := "tg://user?id="

  const RowOpen := "<code>"
  const RowLinkOpen := Swords + "</code> <a href='"

  /** The link's label: the member's name. */
  function RowLabel(name: string): string {
    "'>" + name + "</a>"
  }

  /** The row the "add" handler writes for a member: the attack right-aligned in five columns,
      then a link to the member's account labelled with the member's name. */
  function RenderRow(atk: int, uid: int, name: string): string {
    RowOpen + RJust(IntToDecimal(atk), 5) + RowLinkOpen + Marker + IntToDecimal(uid) + RowLabel(name)
  }

  // ---------------------------------------------------------------------------------------
  // Header:  ^[^(]+\(\D*(\d+)\D+\).+(?:\n([\s\S]*)|)$
  // ---------------------------------------------------------------------------------------

  /** The header pattern matches `s` with its first '(' at `open`, group 1 at
      `[numStart, numEnd)` and the escaped ')' at `close`. What follows `close` (one or more
      characters up to a line break, then anything) always matches once `s[close + 1]` exists
      and is not a line break. */
  ghost predicate HeaderAt(s: string, open: nat, numStart: nat, numEnd: nat, close: nat) {
    && 0 < open < numStart < numEnd < close && close + 1 < |s|
    && FirstOpen(s, open) && NumberAt(s, open, numStart, numEnd) && CloseAt(s, numEnd, close)
  }

  /** `^[^(]+\(`: the first '(' is at `open`. */
  ghost predicate FirstOpen(s: string, open: nat)
    requires open < |s|
  {
    s[open] == '(' && forall k :: 0 <= k < open ==> s[k] != '('
  }

  /** `\D*(\d+)`: non-digits after `open`, then the digits of group 1. */
  ghost predicate NumberAt(s: string, open: nat, numStart: nat, numEnd: nat)
    requires open < numStart < numEnd <= |s|
  {
    && (forall k :: open < k < numStart ==> !IsDigit(s[k]))
    && (forall k :: numStart <= k < numEnd ==> IsDigit(s[k]))
  }

  /** `\D+\).`: non-digits up to the ')' at `close`, then a character on the same line. */
  ghost predicate CloseAt(s: string, numEnd: nat, close: nat)
    requires numEnd < close && close + 1 < |s|
  {
    (forall k :: numEnd <= k < close ==> !IsDigit(s[k])) && s[close] == ')' && s[close + 1] != '\n'
  }

  datatype HeaderSpans = HeaderSpans(open: nat, numStart: nat, numEnd: nat, close: nat)

  /** A ')' that can end the header's number: `.+` needs a character after it on the same line. */
  predicate CloseOk(s: string, j: nat) {
    j + 1 < |s| && s[j] == ')' && s[j + 1] != '\n'
  }

  /** The last position in `[lo, hi)` where `CloseOk` holds: greedy `\D+` backs off from the
      right, so the matcher settles on the rightmost usable ')'. */
  function LastClose(s: string, lo: nat, hi: nat): (r: Option<nat>)
    requires hi <= |s|
    ensures r.Some? ==> lo <= r.value < hi && CloseOk(s, r.value)
    ensures r.Some? ==> forall j :: r.value < j < hi ==> !CloseOk(s, j)
    ensures r.None? ==> forall j :: lo <= j < hi ==> !CloseOk(s, j)
    decreases hi - lo
  {
    if hi <= lo then None
    else if CloseOk(s, hi - 1) then Some(hi - 1)
    else LastClose(s, lo, hi - 1)
  }

  function FindHeader(s: string): (r: Option<HeaderSpans>)
    ensures r.Some? ==> r.value.numStart < r.value.numEnd < r.value.close < |s|
  {
    var open := FindChar(s, 0, '(');
    if open == 0 || open == |s| then None
    else
      var numStart := SkipNonDigits(s, open + 1);
      if numStart == |s| then None
      else
        var numEnd := SkipDigits(s, numStart);
        var stop := SkipNonDigits(s, numEnd);
        match LastClose(s, numEnd + 1, stop)
        case None => None
        case Some(close) => Some(HeaderSpans(open, numStart, numEnd, close))
  }

  /** Where every header match sits relative to the scan's positions. */
  lemma HeaderAtScan(s: string, o: nat, a: nat, b: nat, c: nat)
    requires HeaderAt(s, o, a, b, c)
    ensures o == FindChar(s, 0, '(') && 0 < o < |s|
    ensures a == SkipNonDigits(s, o + 1) && a < |s| && b == SkipDigits(s, a)
    ensures b + 1 <= c < SkipNonDigits(s, b) && CloseOk(s, c)
  {
    assert IsDigit(s[a]) && !IsDigit(s[b]);
  }

  /** Every header match is found: the scan reports its '(' and its number, and a ')' at or
      after its own. */
  lemma HeaderAtFound(s: string, o: nat, a: nat, b: nat, c: nat)
    requires HeaderAt(s, o, a, b, c)
    ensures var r := FindHeader(s);
      r.Some? && r.value.open == o && r.value.numStart == a && r.value.numEnd == b && c <= r.value.close
  {
    HeaderAtScan(s, o, a, b, c);
  }

  /** `HeaderAtFound` for every match at once. */
  lemma HeaderAtFoundAll(s: string)
    ensures forall o: nat, a: nat, b: nat, c: nat :: HeaderAt(s, o, a, b, c) ==>
      var r := FindHeader(s);
      r.Some? && r.value.open == o && r.value.numStart == a && r.value.numEnd == b && c <= r.value.close
  {
    forall o: nat, a: nat, b: nat, c: nat | HeaderAt(s, o, a, b, c)
      ensures var r := FindHeader(s);
        r.Some? && r.value.open == o && r.value.numStart == a && r.value.numEnd == b && c <= r.value.close
    {
      HeaderAtFound(s, o, a, b, c);
    }
  }

  /** The positions the scan reports form a match. */
  lemma FindHeaderSound(s: string)
    requires FindHeader(s).Some?
    ensures var h := FindHeader(s).value; HeaderAt(s, h.open, h.numStart, h.numEnd, h.close)
  {
    var open := FindChar(s, 0, '(');
    var numStart := SkipNonDigits(s, open + 1);
    var numEnd := SkipDigits(s, numStart);
    var close := LastClose(s, numEnd + 1, SkipNonDigits(s, numEnd)).value;
    assert FindHeader(s).value == HeaderSpans(open, numStart, numEnd, close);
    assert HeaderAt(s, open, numStart, numEnd, close);
  }

  /** The scan finds a match exactly when the pattern matches, and the ')' it settles on is
      the rightmost one a match can use. */
  lemma FindHeaderExact(s: string)
    ensures FindHeader(s).Some? ==>
      var h := FindHeader(s).value;
      && HeaderAt(s, h.open, h.numStart, h.numEnd, h.close)
      && forall c: nat :: HeaderAt(s, h.open, h.numStart, h.numEnd, c) ==> c <= h.close
    ensures FindHeader(s).None? ==> forall o: nat, a: nat, b: nat, c: nat :: !HeaderAt(s, o, a, b, c)
  {
    forall o: nat, a: nat, b: nat, c: nat | HeaderAt(s, o, a, b, c)
      ensures FindHeader(s).Some? && c <= FindHeader(s).value.close
    {
      HeaderAtFound(s, o, a, b, c);
    }
    if FindHeader(s).Some? {
      FindHeaderSound(s);
    }
  }

  /** What the header pattern reports: group 1 as a number and group 2, if it took part. */
  datatype SquadMatch = SquadMatch(total: nat, body: Option<string>)

  /** Group 2: what follows the first line break after `from`, when there is one. */
  function RestAfterLine(s: string, from: nat): (r: Option<string>)
    requires from <= |s|
    ensures r.Some? ==> var n := |s| - |r.value| - 1;
      && from <= n < |s| && s[n] == '\n' && r.value == s[n + 1..]
      && forall k :: from <= k < n ==> s[k] != '\n'
    ensures r.None? ==> '\n' !in s[from..]
  {
    var n := FindChar(s, from, '\n');
    if n < |s| then Some(s[n + 1..]) else None
  }

  /** `squad_msg_pattern.search(s)`: the declared total and the roster body. */
  function ParseSquad(s: string): (r: Option<SquadMatch>)
  {
    match FindHeader(s)
    case None => None
    case Some(h) =>
      Some(SquadMatch(DigitsValue(s[h.numStart..h.numEnd]), RestAfterLine(s, h.close + 1)))
  }

  /** What the roster parses to, read off the scan's positions. */
  lemma ParseSquadOf(s: string, h: HeaderSpans, d: string, body: Option<string>)
    requires FindHeader(s) == Some(h) && s[h.numStart..h.numEnd] == d && RestAfterLine(s, h.close + 1) == body
    ensures ParseSquad(s) == Some(SquadMatch(DigitsValue(d), body))
  {
  }

  /** The header pattern matches exactly when the roster parses, and the total is group 1 of
      every match. */
  lemma ParseSquadExact(s: string)
    ensures ParseSquad(s).Some? <==> exists o: nat, a: nat, b: nat, c: nat :: HeaderAt(s, o, a, b, c)
    ensures forall o: nat, a: nat, b: nat, c: nat :: HeaderAt(s, o, a, b, c) ==>
      ParseSquad(s).Some? && ParseSquad(s).value.total == DigitsValue(s[a..b])
  {
    forall o: nat, a: nat, b: nat, c: nat | HeaderAt(s, o, a, b, c)
      ensures ParseSquad(s).Some? && ParseSquad(s).value.total == DigitsValue(s[a..b])
    {
      HeaderAtFound(s, o, a, b, c);
    }
    if ParseSquad(s).Some? {
      FindHeaderSound(s);
      var h := FindHeader(s).value;
      assert HeaderAt(s, h.open, h.numStart, h.numEnd, h.close);
    }
  }

  /** No ')' comes before the first digit of `body`; otherwise that ')' would be the one the
      greedy `\D+` of the header pattern settles on, and the header would swallow a line. */
  predicate NoCloseBeforeDigit(body: string) {
    ')' !in body[..SkipNonDigits(body, 0)]
  }

  /** The layout of a rendered header: a title without '(', then '(', non-digits, the total,
      non-digits, ')', and a line remainder without digits, ')' or line breaks. */
  ghost predicate HeaderLayout(pre: string, lead: string, d: string, mid: string, after: string) {
    && |pre| > 0 && '(' !in pre
    && (forall k :: 0 <= k < |lead| ==> !IsDigit(lead[k]))
    && |d| > 0 && AllDigits(d)
    && |mid| > 0 && (forall k :: 0 <= k < |mid| ==> !IsDigit(mid[k]))
    && |after| > 0 && '\n' !in after && ')' !in after
    && (forall k :: 0 <= k < |after| ==> !IsDigit(after[k]))
  }

  /** A header layout followed by nothing, or by a line break and a body. */
  predicate HeaderTailOk(tail: string) {
    tail == [] || (tail[0] == '\n' && NoCloseBeforeDigit(tail[1..]))
  }

  /** The text a header layout and a tail make up. */
  function HeaderText(pre: string, lead: string, d: string, mid: string, after: string, tail: string): string {
    pre + "(" + lead + d + mid + ")" + after + tail
  }

  /** Where the pattern's pieces sit in a header layout. */
  function LayoutSpans(pre: string, lead: string, d: string, mid: string): HeaderSpans {
    var a := |pre| + 1 + |lead|;
    HeaderSpans(|pre|, a, a + |d|, a + |d| + |mid|)
  }

  lemma LayoutMatches(pre: string, lead: string, d: string, mid: string, after: string, tail: string, s: string)
    requires HeaderLayout(pre, lead, d, mid, after) && s == HeaderText(pre, lead, d, mid, after, tail)
    ensures var g := LayoutSpans(pre, lead, d, mid);
      HeaderAt(s, g.open, g.numStart, g.numEnd, g.close) && s[g.numStart..g.numEnd] == d
  {
    var a := |pre| + 1 + |lead|;
    var c := a + |d| + |mid|;
    assert forall k :: 0 <= k < |pre| ==> s[k] == pre[k];
    assert forall k :: |pre| < k < a ==> s[k] == lead[k - |pre| - 1];
    assert forall k :: a <= k < a + |d| ==> s[k] == d[k - a];
    assert forall k :: a + |d| <= k < c ==> s[k] == mid[k - a - |d|];
    assert s[c] == ')' && s[c + 1] == after[0];
    assert s[a..a + |d|] == d;
  }

  /** No usable ')' lies beyond the rendered one: the rest of its line holds none, and a body
      that puts no ')' before its first digit offers none either. */
  lemma LayoutRightmost(pre: string, lead: string, d: string, mid: string, after: string, tail: string, s: string, c: nat)
    requires HeaderLayout(pre, lead, d, mid, after) && HeaderTailOk(tail)
    requires s == HeaderText(pre, lead, d, mid, after, tail)
    requires var b := LayoutSpans(pre, lead, d, mid).numEnd; b < c && c + 1 < |s| && CloseAt(s, b, c)
    ensures c <= LayoutSpans(pre, lead, d, mid).close
  {
    var h := HeaderText(pre, lead, d, mid, after, []);
    assert s == h + tail;
    var close := |pre| + 1 + |lead| + |d| + |mid|;
    assert forall k :: close < k < |h| ==> s[k] == after[k - close - 1];
    if tail != [] {
      var body := tail[1..];
      var first := SkipNonDigits(body, 0);
      assert s[|h|] == '\n';
      assert forall k :: |h| < k < |h| + 1 + first ==> s[k] == body[..first][k - |h| - 1];
      assert |h| + 1 + first < |s| ==> s[|h| + 1 + first] == body[first];
    }
  }

  lemma LayoutBody(pre: string, lead: string, d: string, mid: string, after: string, tail: string, s: string)
    requires HeaderLayout(pre, lead, d, mid, after) && HeaderTailOk(tail)
    requires s == HeaderText(pre, lead, d, mid, after, tail)
    ensures RestAfterLine(s, LayoutSpans(pre, lead, d, mid).close + 1) == (if tail == [] then None else Some(tail[1..]))
  {
    var h := HeaderText(pre, lead, d, mid, after, []);
    assert s == h + tail;
    var from := |pre| + 1 + |lead| + |d| + |mid| + 1;
    assert forall k :: from <= k < |h| ==> s[k] == after[k - from];
    var nl := FindChar(s, from, '\n');
    if tail != [] {
      assert s[|h|] == '\n';
      assert nl == |h|;
      assert s[nl + 1..] == tail[1..];
    }
  }

  /** A header followed by nothing or by a body parses as the total it shows and that body. */
  lemma LayoutParses(pre: string, lead: string, d: string, mid: string, after: string, tail: string)
    requires HeaderLayout(pre, lead, d, mid, after) && HeaderTailOk(tail)
    ensures ParseSquad(HeaderText(pre, lead, d, mid, after, tail))
      == Some(SquadMatch(DigitsValue(d), if tail == [] then None else Some(tail[1..])))
  {
    var s := HeaderText(pre, lead, d, mid, after, tail);
    var g := LayoutSpans(pre, lead, d, mid);
    LayoutMatches(pre, lead, d, mid, after, tail, s);
    HeaderAtFoundAll(s);
    FindHeaderSound(s);
    var h := FindHeader(s).value;
    LayoutRightmost(pre, lead, d, mid, after, tail, s, h.close);
    LayoutBody(pre, lead, d, mid, after, tail, s);
    assert h == g;
    ParseSquadOf(s, g, d, if tail == [] then None else Some(tail[1..]));
  }

  /** How a rendered header of a non-negative total splits into the header layout. */
  lemma RenderedHeaderLayout(t: nat)
    ensures HeaderLayout(HeaderTitle, "<u>", NatToDecimal(t), HeaderMid, ":</b>")
  {
  }

  /** The /suicide roster is the header the handler writes for total 0. */
  lemma EmptyRosterIsHeader()
    ensures EmptyRoster == RenderHeader(0)
  {
    assert IntToDecimal(0) == "0";
  }

  /** The /suicide roster parses as total 0 with no body. */
  lemma EmptyRosterParses()
    ensures ParseSquad(EmptyRoster) == Some(SquadMatch(0, None))
  {
    EmptyRosterIsHeader();
    RenderedHeaderLayout(0);
    LayoutParses(HeaderTitle, "<u>", NatToDecimal(0), HeaderMid, ":</b>", []);
    assert HeaderText(HeaderTitle, "<u>", NatToDecimal(0), HeaderMid, ":</b>", []) == RenderHeader(0) + [] == RenderHeader(0);
  }

  /** A roster the handler writes parses back to the total it wrote and the rows it wrote,
      provided the first row does not put a ')' before its first digit. */
  lemma RenderedRosterParses(t: nat, body: string)
    requires NoCloseBeforeDigit(body)
    ensures ParseSquad(RenderHeader(t) + "\n" + body) == Some(SquadMatch(t, Some(body)))
  {
    assert IntToDecimal(t) == NatToDecimal(t);
    RenderedHeaderLayout(t);
    HeaderParses(HeaderTitle, "<u>", NatToDecimal(t), HeaderMid, ":</b>", body, RenderHeader(t) + "\n" + body, t);
  }

  /** A header laid out as the handler lays it out, a line break and a body parse to the
      header's digits and that body. */
  lemma HeaderParses(title: string, u: string, d: string, m: string, a: string, body: string, s: string, v: nat)
    requires HeaderLayout(title, u, d, m, a) && NoCloseBeforeDigit(body) && DigitsValue(d) == v
    requires s == title + "(" + u + d + m + ")" + a + "\n" + body
    ensures ParseSquad(s) == Some(SquadMatch(v, Some(body)))
  {
    var tail := "\n" + body;
    assert tail[1..] == body;
    assert HeaderText(title, u, d, m, a, tail) == s;
    LayoutParses(title, u, d, m, a, tail);
  }

  /** A negative total is written with its '-', but the header pattern's `\D*` reads the '-' as
      one more non-digit: the next press reads the total without its sign. */
  lemma NegativeTotalLosesSign(t: nat, body: string)
    requires t > 0 && NoCloseBeforeDigit(body)
    ensures ParseSquad(RenderHeader(-(t as int)) + "\n" + body) == Some(SquadMatch(t, Some(body)))
  {
    var d := NatToDecimal(t);
    assert IntToDecimal(-(t as int)) == "-" + d;
    assert forall k :: 0 <= k < |"<u>" + "-"| ==> !IsDigit(("<u>" + "-")[k]);
    RenderedHeaderLayout(t);
    SignedHeaderParses(HeaderTitle, "<u>", "-", d, HeaderMid, ":</b>", body, RenderHeader(-(t as int)) + "\n" + body, t);
  }

  /** A header whose number is preceded by a sign-like non-digit parses to the digits alone. */
  lemma SignedHeaderParses(title: string, u: string, minus: string, d: string, m: string, a: string, body: string, s: string, v: nat)
    requires HeaderLayout(title, u, d, m, a) && NoCloseBeforeDigit(body) && DigitsValue(d) == v
    requires forall k :: 0 <= k < |u + minus| ==> !IsDigit((u + minus)[k])
    requires s == title + "(" + u + (minus + d) + m + ")" + a + "\n" + body
    ensures ParseSquad(s) == Some(SquadMatch(v, Some(body)))
  {
    var tail := "\n" + body;
    assert tail[1..] == body;
    SignRegroup(title, u, minus, d, m, a, "\n", body);
    assert HeaderLayout(title, u + minus, d, m, a);
    LayoutParses(title, u + minus, d, m, a, tail);
  }

  lemma SignRegroup(title: string, u: string, minus: string, d: string, m: string, a: string, nl: string, body: string)
    ensures HeaderText(title, u + minus, d, m, a, nl + body) == title + "(" + u + (minus + d) + m + ")" + a + nl + body
  {
  }

  /** A body that is one line starting with ')', followed by at least one more character and no
      digit, second ')' or line break, is taken into the header by the greedy `\D+`: the roster
      reads as having no body. */
  lemma CloseLineSwallowed(t: nat, rest: string)
    requires |rest| > 0 && '\n' !in rest && ')' !in rest
    requires forall k :: 0 <= k < |rest| ==> !IsDigit(rest[k])
    ensures ParseSquad(RenderHeader(t) + "\n" + ")" + rest) == Some(SquadMatch(t, None))
  {
    var d := NatToDecimal(t);
    var mid := HeaderMid + ")" + ":</b>" + "\n";
    assert forall k :: 0 <= k < |mid| ==> !IsDigit(mid[k]);
    assert HeaderLayout(HeaderTitle, "<u>", d, mid, rest);
    LayoutParses(HeaderTitle, "<u>", d, mid, rest, []);
    SwallowRegroup(HeaderTitle, "<u>", d, HeaderMid, ":</b>", "\n", rest);
  }

  lemma SwallowRegroup(title: string, u: string, d: string, m: string, a: string, nl: string, rest: string)
    ensures HeaderText(title, u, d, m + ")" + a + nl, rest, []) == title + "(" + u + d + m + ")" + a + nl + ")" + rest
  {
  }

  // ---------------------------------------------------------------------------------------
  // Row:  ^\D*(\d+)\D.+tg://user\?id=(\d+)\D
  // ---------------------------------------------------------------------------------------

  /** The row pattern matches `s` with group 1 at `[atkStart, atkEnd)`, the user reference at
      `marker` and group 2 at `[marker + |Marker|, idEnd)`. `.+` spans `(atkEnd, marker)`, so it
      is not empty and holds no line break. */
  ghost predicate RowAt(s: string, atkStart: nat, atkEnd: nat, marker: nat, idEnd: nat) {
    && atkStart < atkEnd < |s|
    && (forall k :: 0 <= k < atkStart ==> !IsDigit(s[k]))
    && (forall k :: atkStart <= k < atkEnd ==> IsDigit(s[k])) && !IsDigit(s[atkEnd])
    && atkEnd + 2 <= marker && marker + |Marker| < idEnd < |s|
    && (forall k :: atkEnd < k < marker ==> s[k] != '\n') && MarkerAt(s, marker)
    && (forall k :: marker + |Marker| <= k < idEnd ==> IsDigit(s[k])) && !IsDigit(s[idEnd])
  }

  /** `tg://user?id=` starts at `q`. */
  predicate MarkerAt(s: string, q: nat) {
    q + |Marker| <= |s| && s[q..q + |Marker|] == Marker
  }

  lemma MarkerAtChars(s: string, q: nat)
    requires MarkerAt(s, q)
    ensures s[q] == 't' && s[q + 9] == '?'
    ensures forall k :: q + 9 < k < q + |Marker| ==> s[k] != '?'
  {
    assert s[q] == s[q..q + |Marker|][0] && s[q + 9] == s[q..q + |Marker|][9];
    assert forall k :: q + 9 < k < q + |Marker| ==> s[k] == s[q..q + |Marker|][k - q];
  }

  /** A user reference at `q` that the rest of the pattern accepts: digits, then a non-digit. */
  predicate IdOk(s: string, q: nat) {
    && q + |Marker| < |s| && MarkerAt(s, q) && IsDigit(s[q + |Marker|])
    && SkipDigits(s, q + |Marker|) < |s|
  }

  /** The last position in `[lo, hi)` where `IdOk` holds: greedy `.+` backs off from the end of
      the line, so the matcher settles on the rightmost usable user reference. */
  function LastId(s: string, lo: nat, hi: nat): (r: Option<nat>)
    requires hi <= |s|
    ensures r.Some? ==> lo <= r.value < hi && IdOk(s, r.value)
    decreases hi - lo
  {
    if hi <= lo then None
    else if IdOk(s, hi - 1) then Some(hi - 1)
    else LastId(s, lo, hi - 1)
  }

  /** No usable user reference in the range lies after the one the scan reports. */
  lemma {:induction false} LastIdMax(s: string, lo: nat, hi: nat, q: nat)
    requires hi <= |s| && lo <= q < hi && IdOk(s, q)
    ensures LastId(s, lo, hi).Some? && q <= LastId(s, lo, hi).value
    decreases hi - lo
  {
    if q < hi - 1 && !IdOk(s, hi - 1) {
      LastIdMax(s, lo, hi - 1, q);
    }
  }

  datatype RowSpans = RowSpans(atkStart: nat, atkEnd: nat, marker: nat, idEnd: nat)

  function FindRow(s: string): (r: Option<RowSpans>)
    ensures r.Some? ==> r.value.atkStart < r.value.atkEnd < |s|
    ensures r.Some? ==> r.value.marker + |Marker| < r.value.idEnd < |s|
  {
    var atkStart := SkipNonDigits(s, 0);
    if atkStart == |s| then None
    else
      var atkEnd := SkipDigits(s, atkStart);
      if atkEnd == |s| then None
      else RowAfter(s, atkStart, atkEnd)
  }

  /** The rest of the scan once group 1 is known: the rightmost usable user reference on the
      line, at least one character past the attack digits. */
  function RowAfter(s: string, atkStart: nat, atkEnd: nat): (r: Option<RowSpans>)
    requires atkEnd < |s|
    ensures r.Some? ==> r.value.atkStart == atkStart && r.value.atkEnd == atkEnd
    ensures r.Some? ==> atkEnd + 2 <= r.value.marker && r.value.marker + |Marker| < r.value.idEnd < |s|
  {
    match LastId(s, atkEnd + 2, FindChar(s, atkEnd + 1, '\n'))
    case None => None
    case Some(q) => Some(RowSpans(atkStart, atkEnd, q, SkipDigits(s, q + |Marker|)))
  }

  /** Where every row match sits relative to the scan's positions. */
  lemma RowAtScan(s: string, a: nat, b: nat, q: nat, e: nat)
    requires RowAt(s, a, b, q, e)
    ensures a == SkipNonDigits(s, 0) && b == SkipDigits(s, a) && b < |s|
    ensures b + 2 <= q < FindChar(s, b + 1, '\n') && IdOk(s, q) && e == SkipDigits(s, q + |Marker|)
  {
    assert IsDigit(s[a]) && !IsDigit(s[b]);
    MarkerAtChars(s, q);
    assert IsDigit(s[q + |Marker|]) && !IsDigit(s[e]);
  }

  /** Every row match is found: the scan reports its attack, and a user reference at or after
      its own (with its id when it is the same reference). */
  lemma RowAtFound(s: string, a: nat, b: nat, q: nat, e: nat)
    requires RowAt(s, a, b, q, e)
    ensures var r := FindRow(s);
      && r.Some? && r.value.atkStart == a && r.value.atkEnd == b && q <= r.value.marker
      && (q == r.value.marker ==> e == r.value.idEnd)
  {
    RowAtScan(s, a, b, q, e);
    var nl := FindChar(s, b + 1, '\n');
    LastIdMax(s, b + 2, nl, q);
    FindRowIs(s, a, b, nl, LastId(s, b + 2, nl).value);
  }

  /** What the scan reports once its steps are known. */
  lemma FindRowIs(s: string, a: nat, b: nat, nl: nat, m: nat)
    requires a == SkipNonDigits(s, 0) && b == SkipDigits(s, a) && b < |s|
    requires b + 1 <= |s| && nl == FindChar(s, b + 1, '\n') && LastId(s, b + 2, nl) == Some(m)
    ensures FindRow(s) == Some(RowSpans(a, b, m, SkipDigits(s, m + |Marker|)))
  {
    assert FindRow(s) == RowAfter(s, a, b);
  }

  /** `RowAtFound` for every match at once. */
  lemma RowAtFoundAll(s: string)
    ensures forall a: nat, b: nat, q: nat, e: nat :: RowAt(s, a, b, q, e) ==>
      var r := FindRow(s);
      && r.Some? && r.value.atkStart == a && r.value.atkEnd == b && q <= r.value.marker
      && (q == r.value.marker ==> e == r.value.idEnd)
  {
    forall a: nat, b: nat, q: nat, e: nat | RowAt(s, a, b, q, e)
      ensures var r := FindRow(s);
        && r.Some? && r.value.atkStart == a && r.value.atkEnd == b && q <= r.value.marker
        && (q == r.value.marker ==> e == r.value.idEnd)
    {
      RowAtFound(s, a, b, q, e);
    }
  }

  /** The positions the scan reports form a match. */
  lemma FindRowSound(s: string)
    requires FindRow(s).Some?
    ensures var h := FindRow(s).value; RowAt(s, h.atkStart, h.atkEnd, h.marker, h.idEnd)
  {
    var atkStart := SkipNonDigits(s, 0);
    var atkEnd := SkipDigits(s, atkStart);
    var nl := FindChar(s, atkEnd + 1, '\n');
    assert FindRow(s) == RowAfter(s, atkStart, atkEnd);
    var q := LastId(s, atkEnd + 2, nl).value;
    assert FindRow(s).value == RowSpans(atkStart, atkEnd, q, SkipDigits(s, q + |Marker|));
    assert RowAt(s, atkStart, atkEnd, q, SkipDigits(s, q + |Marker|));
  }

  /** The scan finds a match exactly when the row pattern matches, and the user reference it
      settles on is the rightmost one a match can use. */
  lemma FindRowExact(s: string)
    ensures FindRow(s).Some? ==>
      var h := FindRow(s).value;
      && RowAt(s, h.atkStart, h.atkEnd, h.marker, h.idEnd)
      && forall q: nat, e: nat :: RowAt(s, h.atkStart, h.atkEnd, q, e) ==> q <= h.marker
    ensures FindRow(s).None? ==> forall a: nat, b: nat, q: nat, e: nat :: !RowAt(s, a, b, q, e)
  {
    forall a: nat, b: nat, q: nat, e: nat | RowAt(s, a, b, q, e)
      ensures FindRow(s).Some? && q <= FindRow(s).value.marker
    {
      RowAtFound(s, a, b, q, e);
    }
    if FindRow(s).Some? {
      FindRowSound(s);
    }
  }

  /** What the row pattern reports: the displayed attack and the member's user id. */
  datatype RowMatch = RowMatch(atk: nat, uid: nat)

  /** `squad_msg_row_pattern.search(row)`. */
  function MatchRow(s: string): (r: Option<RowMatch>)
  {
    match FindRow(s)
    case None => None
    case Some(h) =>
      Some(RowMatch(DigitsValue(s[h.atkStart..h.atkEnd]), DigitsValue(s[h.marker + |Marker|..h.idEnd])))
  }

  /** What a row parses to, read off the scan's positions. */
  lemma MatchRowOf(s: string, h: RowSpans, d: string, u: string)
    requires FindRow(s) == Some(h) && s[h.atkStart..h.atkEnd] == d && s[h.marker + |Marker|..h.idEnd] == u
    ensures MatchRow(s) == Some(RowMatch(DigitsValue(d), DigitsValue(u)))
  {
  }

  /** The row pattern matches exactly when the row parses, and the attack is group 1 of every
      match. */
  lemma MatchRowExact(s: string)
    ensures MatchRow(s).Some? <==> exists a: nat, b: nat, q: nat, e: nat :: RowAt(s, a, b, q, e)
    ensures forall a: nat, b: nat, q: nat, e: nat :: RowAt(s, a, b, q, e) ==>
      MatchRow(s).Some? && MatchRow(s).value.atk == DigitsValue(s[a..b])
  {
    forall a: nat, b: nat, q: nat, e: nat | RowAt(s, a, b, q, e)
      ensures MatchRow(s).Some? && MatchRow(s).value.atk == DigitsValue(s[a..b])
    {
      RowAtFound(s, a, b, q, e);
    }
    if MatchRow(s).Some? {
      FindRowSound(s);
      var h := FindRow(s).value;
      assert RowAt(s, h.atkStart, h.atkEnd, h.marker, h.idEnd);
    }
  }

  /** The layout of a rendered row: non-digits, the attack, a non-digit and at least one more
      character on the same line, the user reference, the id, and a remainder that starts with a
      non-digit and holds no '?' (so no later user reference can take over). */
  ghost predicate RowLayout(pre: string, d: string, mid: string, u: string, post: string) {
    && (forall k :: 0 <= k < |pre| ==> !IsDigit(pre[k]))
    && |d| > 0 && AllDigits(d)
    && |mid| >= 2 && !IsDigit(mid[0]) && (forall k :: 1 <= k < |mid| ==> mid[k] != '\n')
    && |u| > 0 && AllDigits(u)
    && |post| > 0 && !IsDigit(post[0]) && '?' !in post
  }

  /** The text a row layout makes up. */
  function RowText(pre: string, d: string, mid: string, u: string, post: string): string {
    pre + d + mid + Marker + u + post
  }

  lemma RowLayoutMatches(pre: string, d: string, mid: string, u: string, post: string, s: string)
    requires RowLayout(pre, d, mid, u, post) && s == RowText(pre, d, mid, u, post)
    ensures var b := |pre| + |d|;
      var q := b + |mid|;
      var e := q + |Marker| + |u|;
      && RowAt(s, |pre|, b, q, e) && s[|pre|..b] == d && s[q + |Marker|..e] == u
  {
    var b := |pre| + |d|;
    var q := b + |mid|;
    var e := q + |Marker| + |u|;
    assert forall k :: 0 <= k < |pre| ==> s[k] == pre[k];
    assert forall k :: |pre| <= k < b ==> s[k] == d[k - |pre|];
    assert forall k :: b <= k < q ==> s[k] == mid[k - b];
    assert s[q..q + |Marker|] == Marker;
    assert MarkerAt(s, q);
    assert forall k :: q + |Marker| <= k < e ==> s[k] == u[k - q - |Marker|];
    assert s[e] == post[0];
    assert s[|pre|..b] == d && s[q + |Marker|..e] == u;
  }

  /** No '?' follows the rendered user reference's own. */
  lemma RowLayoutNoQuestion(pre: string, d: string, mid: string, u: string, post: string, s: string, k: nat)
    requires RowLayout(pre, d, mid, u, post) && s == RowText(pre, d, mid, u, post)
    requires |pre| + |d| + |mid| + 9 < k < |s|
    ensures s[k] != '?'
  {
    var q := |pre| + |d| + |mid|;
    var e := q + |Marker| + |u|;
    if k < q + |Marker| {
      assert s[q..q + |Marker|] == Marker;
      MarkerAtChars(s, q);
    } else if k < e {
      assert s[k] == u[k - q - |Marker|];
    } else {
      assert s[k] == post[k - e];
    }
  }

  /** No user reference lies beyond the rendered one, since no '?' does. */
  lemma RowLayoutRightmost(pre: string, d: string, mid: string, u: string, post: string, s: string, q': nat)
    requires RowLayout(pre, d, mid, u, post) && s == RowText(pre, d, mid, u, post)
    requires MarkerAt(s, q')
    ensures q' <= |pre| + |d| + |mid|
  {
    MarkerAtChars(s, q');
    if q' > |pre| + |d| + |mid| {
      RowLayoutNoQuestion(pre, d, mid, u, post, s, q' + 9);
    }
  }

  /** A row of the rendered layout parses as the attack and the id it shows. */
  lemma RowLayoutParses(pre: string, d: string, mid: string, u: string, post: string)
    requires RowLayout(pre, d, mid, u, post)
    ensures MatchRow(RowText(pre, d, mid, u, post)) == Some(RowMatch(DigitsValue(d), DigitsValue(u)))
  {
    var s := RowText(pre, d, mid, u, post);
    var a, b := |pre|, |pre| + |d|;
    var q := b + |mid|;
    var e := q + |Marker| + |u|;
    RowLayoutMatches(pre, d, mid, u, post, s);
    RowAtFoundAll(s);
    FindRowSound(s);
    var h := FindRow(s).value;
    RowLayoutRightmost(pre, d, mid, u, post, s, h.marker);
    assert h == RowSpans(a, b, q, e);
    MatchRowOf(s, h, d, u);
  }

  /** The pieces of a rendered row meet the row layout. */
  lemma RenderedRowLayout(atk: nat, uid: nat, name: string)
    requires '?' !in name
    ensures RowLayout(RowOpen + Spaces(RowPadding(NatToDecimal(atk))), NatToDecimal(atk),
      RowLinkOpen, NatToDecimal(uid), RowLabel(name))
  {
    var post := RowLabel(name);
    assert forall k :: 2 <= k < 2 + |name| ==> post[k] == name[k - 2];
  }

  /** A rendered row is the concatenation of those pieces. */
  lemma RenderedRowSplit(atk: nat, uid: nat, name: string)
    ensures var d := NatToDecimal(atk);
      RenderRow(atk, uid, name) == RowOpen + Spaces(RowPadding(d)) + d + RowLinkOpen + Marker + NatToDecimal(uid) + RowLabel(name)
  {
    var d := NatToDecimal(atk);
    PaddedCell(d);
    Regroup(RowOpen, RJust(d, 5), Spaces(RowPadding(d)), d, RowLinkOpen, Marker, NatToDecimal(uid), RowLabel(name));
  }

  /** The five-column attack cell is the padding followed by the digits. */
  lemma PaddedCell(d: string)
    ensures RJust(d, 5) == Spaces(RowPadding(d)) + d
  {
  }

  lemma Regroup(open: string, cell: string, pad: string, d: string, link: string, m: string, u: string, tail: string)
    requires cell == pad + d
    ensures open + cell + link + m + u + tail == open + pad + d + link + m + u + tail
  {
  }

  function RowPadding(d: string): nat {
    if |d| < 5 then 5 - |d| else 0
  }

  /** The row the handler writes for a member reads back as that member's attack and id, as long
      as the member's name holds no '?'. */
  lemma RenderedRowMatches(atk: nat, uid: nat, name: string)
    requires '?' !in name
    ensures MatchRow(RenderRow(atk, uid, name)) == Some(RowMatch(atk, uid))
  {
    RenderedRowLayout(atk, uid, name);
    RenderedRowSplit(atk, uid, name);
    var pre := RowOpen + Spaces(RowPadding(NatToDecimal(atk)));
    RowLayoutParses(pre, NatToDecimal(atk), RowLinkOpen, NatToDecimal(uid), RowLabel(name));
    assert RowText(pre, NatToDecimal(atk), RowLinkOpen, NatToDecimal(uid), RowLabel(name)) == RenderRow(atk, uid, name);
  }

  // ---------------------------------------------------------------------------------------
  // Authorisation code:  ^Code (\d+) to authorize [^.]+. This app will have the access to:
  // ---------------------------------------------------------------------------------------

  const AuthHead := "Code "
  const AuthMid := " to authorize "
  const AuthTail := " This app will have the access to:"

  /** `t` occurs in `s` at `i`. */
  predicate LiteralAt(s: string, i: nat, t: string) {
    i + |t| <= |s| && s[i..i + |t|] == t
  }

  /** The auth-code pattern matches `s` with group 1 at `[|AuthHead|, codeEnd)` and the
      unescaped `.` (any character but a line break) at `dot`; `[^.]+` spans the characters
      between the application name's start and `dot`. */
  ghost predicate AuthAt(s: string, codeEnd: nat, dot: nat) {
    && |AuthHead| < codeEnd && codeEnd + |AuthMid| < dot < |s|
    && LiteralAt(s, 0, AuthHead)
    && (forall k :: |AuthHead| <= k < codeEnd ==> IsDigit(s[k]))
    && LiteralAt(s, codeEnd, AuthMid)
    && (forall k :: codeEnd + |AuthMid| <= k < dot ==> s[k] != '.')
    && s[dot] != '\n' && LiteralAt(s, dot + 1, AuthTail)
  }

  /** The pattern's remainder accepts a `.` at `m`. */
  predicate TailOk(s: string, m: nat) {
    m < |s| && s[m] != '\n' && LiteralAt(s, m + 1, AuthTail)
  }

  /** Whether some position in `[lo, hi)` accepts the remainder. */
  function SomeTail(s: string, lo: nat, hi: nat): (r: bool)
    ensures r <==> exists m :: lo <= m < hi && TailOk(s, m)
    decreases hi - lo
  {
    if hi <= lo then false else TailOk(s, lo) || SomeTail(s, lo + 1, hi)
  }

  /** `auth_code_pattern.search(s)` and its group 1: the code the game sent. */
  function AuthCode(s: string): (r: Option<string>)
  {
    if !LiteralAt(s, 0, AuthHead) then None
    else
      var codeEnd := SkipDigits(s, |AuthHead|);
      if codeEnd == |AuthHead| || !LiteralAt(s, codeEnd, AuthMid) then None
      else
        var from := codeEnd + |AuthMid|;
        var stop := FindChar(s, from, '.');
        if SomeTail(s, from + 1, if stop < |s| then stop + 1 else |s|) then Some(s[|AuthHead|..codeEnd])
        else None
  }

  /** Where every auth-code match sits relative to the scan's positions. */
  lemma AuthAtScan(s: string, e: nat, m: nat)
    requires AuthAt(s, e, m)
    ensures e == SkipDigits(s, |AuthHead|) && TailOk(s, m)
    ensures e + |AuthMid| < m <= FindChar(s, e + |AuthMid|, '.')
  {
    assert s[e] == s[e..e + |AuthMid|][0];
    assert IsDigit(s[|AuthHead|]) && !IsDigit(s[e]);
  }

  /** The code is found exactly when the pattern matches, and it is group 1 of every match. */
  lemma AuthCodeExact(s: string)
    ensures AuthCode(s).Some? <==> exists e: nat, m: nat :: AuthAt(s, e, m)
    ensures forall e: nat, m: nat :: AuthAt(s, e, m) ==> AuthCode(s) == Some(s[|AuthHead|..e])
  {
    forall e: nat, m: nat | AuthAt(s, e, m)
      ensures e == SkipDigits(s, |AuthHead|) && TailOk(s, m)
      ensures e + |AuthMid| < m <= FindChar(s, e + |AuthMid|, '.')
    {
      AuthAtScan(s, e, m);
    }
    if AuthCode(s).Some? {
      var e := SkipDigits(s, |AuthHead|);
      var from := e + |AuthMid|;
      var stop := FindChar(s, from, '.');
      var m :| from + 1 <= m < (if stop < |s| then stop + 1 else |s|) && TailOk(s, m);
      assert AuthAt(s, e, m);
    }
  }

  /** Where the pattern matches the game's authorisation message. */
  lemma AuthMessageAt(code: string, app: string, rest: string)
    requires |code| > 0 && AllDigits(code)
    requires |app| > 0 && '.' !in app
    ensures var s := AuthHead + code + AuthMid + app + "." + AuthTail + rest;
      var e := |AuthHead| + |code|;
      AuthAt(s, e, e + |AuthMid| + |app|) && s[|AuthHead|..e] == code
  {
    var s := AuthHead + code + AuthMid + app + "." + AuthTail + rest;
    var e := |AuthHead| + |code|;
    var m := e + |AuthMid| + |app|;
    assert s[..|AuthHead|] == AuthHead;
    assert forall k :: |AuthHead| <= k < e ==> s[k] == code[k - |AuthHead|];
    assert s[e..e + |AuthMid|] == AuthMid;
    assert forall k :: e + |AuthMid| <= k < m ==> s[k] == app[k - e - |AuthMid|];
    assert s[m] == '.';
    assert s[m + 1..m + 1 + |AuthTail|] == AuthTail;
    assert s[|AuthHead|..e] == code;
  }

  /** The game's authorisation message yields the code it carries. */
  lemma AuthMessageCode(code: string, app: string, rest: string)
    requires |code| > 0 && AllDigits(code)
    requires |app| > 0 && '.' !in app
    ensures AuthCode(AuthHead + code + AuthMid + app + "." + AuthTail + rest) == Some(code)
  {
    AuthMessageAt(code, app, rest);
    AuthCodeExact(AuthHead + code + AuthMid + app + "." + AuthTail + rest);
  }
}

=== FILE: reconcile.dfy ===
/**
 * What the "add" button does to a roster, stated on the roster's body lines: every row of the
 * pressing user is replaced where it stands by the user's fresh row, every other line is kept,
 * a row is appended when the user had none, and the running total loses each replaced row's
 * displayed attack and gains the added amount once per replaced row (or once for the appended
 * row). The handler in module Bot is proved to compute exactly this. Everything here is stated
 * for any reader of rows; the handler reads them with the row pattern, `Codec.MatchRow`.
 */
module Reconcile {
  import opened Wrappers
  import opened Strings
  import opened Codec

  /** What a roster line reads as: a member's attack and id, or nothing. */
  type RowReader = string -> Option<RowMatch>

  /** A row of user `uid`: the reader recognises it and its user id is `uid`. */
  predicate IsOwn(read: RowReader, line: string, uid: int) {
    read(line).Some? && read(line).value.uid == uid
  }

  /** The attack a line displays: 0 for a line the reader does not recognise. */
  function Displayed(read: RowReader, line: string): nat {
    match read(line)
    case None => 0
    case Some(m) => m.atk
  }

  /** `row` reads as a row of `uid` displaying `added`. */
  predicate Shows(read: RowReader, row: string, uid: int, added: int) {
    read(row).Some? && read(row).value.uid == uid && read(row).value.atk == added
  }

  /** How many rows of `uid` the body holds. */
  function OwnCount(read: RowReader, lines: seq<string>, uid: int): (r: nat)
    ensures r <= |lines|
  {
    if lines == [] then 0
    else OwnCount(read, lines[..|lines| - 1], uid) + (if IsOwn(read, lines[|lines| - 1], uid) then 1 else 0)
  }

  /** The count is zero exactly when no line is a row of `uid`. */
  lemma {:induction false} OwnCountZero(read: RowReader, lines: seq<string>, uid: int)
    ensures OwnCount(read, lines, uid) == 0 <==> forall i :: 0 <= i < |lines| ==> !IsOwn(read, lines[i], uid)
  {
    if lines != [] {
      var init := lines[..|lines| - 1];
      OwnCountZero(read, init, uid);
      assert forall i :: 0 <= i < |init| ==> init[i] == lines[i];
    }
  }

  /** The attacks displayed by the rows of `uid`, added up. */
  function OwnAttack(read: RowReader, lines: seq<string>, uid: int): nat {
    if lines == [] then 0
    else OwnAttack(read, lines[..|lines| - 1], uid) + (if IsOwn(read, lines[|lines| - 1], uid) then Displayed(read, lines[|lines| - 1]) else 0)
  }

  /** The attacks displayed by every row the pattern matches, added up. */
  function DisplayedSum(read: RowReader, lines: seq<string>): nat {
    if lines == [] then 0 else DisplayedSum(read, lines[..|lines| - 1]) + Displayed(read, lines[|lines| - 1])
  }

  /** The buffer the loop fills: each row of `uid` becomes `row`, every other line stays. */
  function Replace(read: RowReader, lines: seq<string>, uid: int, row: string): (r: seq<string>)
    ensures |r| == |lines|
  {
    if lines == [] then []
    else
      var last := lines[|lines| - 1];
      Replace(read, lines[..|lines| - 1], uid, row) + [if IsOwn(read, last, uid) then row else last]
  }

  /** Line by line: a row of `uid` becomes `row`, any other line is kept where it stands. */
  lemma {:induction false} ReplaceAt(read: RowReader, lines: seq<string>, uid: int, row: string)
    ensures var r := Replace(read, lines, uid, row);
      forall i :: 0 <= i < |lines| ==> r[i] == if IsOwn(read, lines[i], uid) then row else lines[i]
  {
    if lines != [] {
      var init := lines[..|lines| - 1];
      ReplaceAt(read, init, uid, row);
      assert forall i :: 0 <= i < |init| ==> init[i] == lines[i];
    }
  }

  /** The running total after the loop: each row of `uid` takes away what it displays and adds
      `added`. */
  function Tally(read: RowReader, total: int, lines: seq<string>, uid: int, added: int): int {
    if lines == [] then total
    else
      var t := Tally(read, total, lines[..|lines| - 1], uid, added);
      if IsOwn(read, lines[|lines| - 1], uid) then t - Displayed(read, lines[|lines| - 1]) + added else t
  }

  /** Without rows of the user the total is left as it was. */
  lemma {:induction false} TallyUntouched(read: RowReader, total: int, lines: seq<string>, uid: int, added: int)
    requires OwnCount(read, lines, uid) == 0
    ensures Tally(read, total, lines, uid, added) == total
  {
    if lines != [] {
      TallyUntouched(read, total, lines[..|lines| - 1], uid, added);
    }
  }

  /** Replace peels off the last line like the loop visits it. */
  lemma ReplaceSnoc(read: RowReader, lines: seq<string>, uid: int, row: string)
    requires lines != []
    ensures var r := Replace(read, lines, uid, row);
      && r[..|r| - 1] == Replace(read, lines[..|lines| - 1], uid, row)
      && r[|r| - 1] == (if IsOwn(read, lines[|lines| - 1], uid) then row else lines[|lines| - 1])
  {
    var r := Replace(read, lines, uid, row);
    assert r[..|r| - 1] == Replace(read, lines[..|lines| - 1], uid, row);
  }

  /** The rows the handler writes: the replaced body, and the fresh row appended when the user
      had none. */
  function NewRows(read: RowReader, lines: seq<string>, uid: int, row: string): seq<string> {
    Replace(read, lines, uid, row) + (if OwnCount(read, lines, uid) == 0 then [row] else [])
  }

  /** The total the handler writes: the tally, plus `added` once more for an appended row. */
  function NewTotal(read: RowReader, total: int, lines: seq<string>, uid: int, added: int): int {
    Tally(read, total, lines, uid, added) + (if OwnCount(read, lines, uid) == 0 then added else 0)
  }

  /** The lines that are not rows of `uid`, in order. */
  function Others(read: RowReader, lines: seq<string>, uid: int): seq<string> {
    if lines == [] then []
    else Others(read, lines[..|lines| - 1], uid) + (if IsOwn(read, lines[|lines| - 1], uid) then [] else [lines[|lines| - 1]])
  }

  /** The total subtracts each replaced row's displayed attack and adds `added` per replaced row. */
  lemma {:induction false} TallyClosedForm(read: RowReader, total: int, lines: seq<string>, uid: int, added: int)
    ensures Tally(read, total, lines, uid, added) == total - OwnAttack(read, lines, uid) + OwnCount(read, lines, uid) * added
  {
    if lines != [] {
      TallyClosedForm(read, total, lines[..|lines| - 1], uid, added);
    }
  }

  /** The tally is linear in the starting total. */
  lemma {:induction false} TallyShift(read: RowReader, total: int, lines: seq<string>, uid: int, added: int)
    ensures Tally(read, total, lines, uid, added) == total + Tally(read, 0, lines, uid, added)
  {
    if lines != [] {
      TallyShift(read, total, lines[..|lines| - 1], uid, added);
    }
  }

  /** Replacing the rows of `uid` by a row that displays `added` changes the sum of displayed
      attacks by exactly what the tally changes the total by. */
  lemma {:induction false} ReplaceDisplayed(read: RowReader, lines: seq<string>, uid: int, row: string, added: nat)
    requires Shows(read, row, uid, added)
    ensures DisplayedSum(read, Replace(read, lines, uid, row)) == DisplayedSum(read, lines) + Tally(read, 0, lines, uid, added)
  {
    if lines != [] {
      var init := lines[..|lines| - 1];
      var r := Replace(read, lines, uid, row);
      ReplaceDisplayed(read, init, uid, row, added);
      ReplaceSnoc(read, lines, uid, row);
      assert DisplayedSum(read, r) == DisplayedSum(read, Replace(read, init, uid, row)) + Displayed(read, r[|r| - 1]);
    }
  }

  lemma DisplayedSumSnoc(read: RowReader, xs: seq<string>, x: string)
    ensures DisplayedSum(read, xs + [x]) == DisplayedSum(read, xs) + Displayed(read, x)
  {
    assert (xs + [x])[..|xs|] == xs;
  }

  /** The difference between the header total and the displayed attacks is what it was: a
      roster whose total was the sum of its rows still is after the button is pressed. */
  lemma GapPreserved(read: RowReader, total: int, lines: seq<string>, uid: int, row: string, added: nat)
    requires Shows(read, row, uid, added)
    ensures NewTotal(read, total, lines, uid, added) - DisplayedSum(read, NewRows(read, lines, uid, row))
      == total - DisplayedSum(read, lines)
  {
    TallyShift(read, total, lines, uid, added);
    ReplaceDisplayed(read, lines, uid, row, added);
    var r := Replace(read, lines, uid, row);
    if OwnCount(read, lines, uid) == 0 {
      DisplayedSumSnoc(read, r, row);
    } else {
      assert NewRows(read, lines, uid, row) == r;
    }
  }

  lemma OwnCountSnoc(read: RowReader, xs: seq<string>, x: string, uid: int)
    ensures OwnCount(read, xs + [x], uid) == OwnCount(read, xs, uid) + if IsOwn(read, x, uid) then 1 else 0
  {
    assert (xs + [x])[..|xs|] == xs;
  }

  /** A body without rows of the user is copied unchanged. */
  lemma ReplaceUntouched(read: RowReader, lines: seq<string>, uid: int, row: string)
    requires OwnCount(read, lines, uid) == 0
    ensures Replace(read, lines, uid, row) == lines
  {
    OwnCountZero(read, lines, uid);
  }

  /** Visiting one more line of the body: how the count, the tally and the buffer move. */
  lemma VisitStep(read: RowReader, seen: seq<string>, x: string, total: int, uid: int, row: string, added: int)
    ensures OwnCount(read, seen + [x], uid) == OwnCount(read, seen, uid) + (if IsOwn(read, x, uid) then 1 else 0)
    ensures Tally(read, total, seen + [x], uid, added)
      == if IsOwn(read, x, uid) then Tally(read, total, seen, uid, added) - Displayed(read, x) + added
         else Tally(read, total, seen, uid, added)
    ensures Replace(read, seen + [x], uid, row) == Replace(read, seen, uid, row) + [if IsOwn(read, x, uid) then row else x]
  {
    var q := seen + [x];
    assert q[..|q| - 1] == seen;
    ReplaceSnoc(read, q, uid, row);
    var r := Replace(read, q, uid, row);
    assert r == r[..|r| - 1] + [r[|r| - 1]];
  }

  /** The state of the handler's loop after visiting `seen`: whether a row of `uid` was met,
      the running total and the buffer of rewritten lines. */
  ghost predicate Visited(read: RowReader, total: int, seen: seq<string>, uid: int, row: string, added: int,
                          found: bool, atk: int, buf: string) {
    && (found <==> OwnCount(read, seen, uid) > 0)
    && atk == Tally(read, total, seen, uid, added)
    && buf == JoinLines(Replace(read, seen, uid, row))
  }

  /** Visiting a row of `uid` rewrites it and moves the total; any other line is copied. */
  lemma VisitedStep(read: RowReader, total: int, seen: seq<string>, x: string, uid: int, row: string, added: int,
                    found: bool, atk: int, buf: string, found': bool, atk': int, buf': string)
    requires Visited(read, total, seen, uid, row, added, found, atk, buf)
    requires IsOwn(read, x, uid) ==> found' && atk' == atk - Displayed(read, x) + added && buf' == buf + row + "\n"
    requires !IsOwn(read, x, uid) ==> found' == found && atk' == atk && buf' == buf + x + "\n"
    ensures Visited(read, total, seen + [x], uid, row, added, found', atk', buf')
  {
    VisitStep(read, seen, x, total, uid, row, added);
    JoinLinesSnoc(Replace(read, seen, uid, row), if IsOwn(read, x, uid) then row else x);
  }

  /** Replacing keeps the number of rows of the user. */
  lemma {:induction false} OwnCountReplace(read: RowReader, lines: seq<string>, uid: int, row: string)
    requires IsOwn(read, row, uid)
    ensures OwnCount(read, Replace(read, lines, uid, row), uid) == OwnCount(read, lines, uid)
  {
    if lines != [] {
      OwnCountReplace(read, lines[..|lines| - 1], uid, row);
      ReplaceSnoc(read, lines, uid, row);
    }
  }

  /** After the button the user has exactly as many rows as before, or one if there were none. */
  lemma OwnCountAfter(read: RowReader, lines: seq<string>, uid: int, row: string)
    requires IsOwn(read, row, uid)
    ensures OwnCount(read, NewRows(read, lines, uid, row), uid) == if OwnCount(read, lines, uid) == 0 then 1 else OwnCount(read, lines, uid)
  {
    OwnCountReplace(read, lines, uid, row);
    var r := Replace(read, lines, uid, row);
    if OwnCount(read, lines, uid) == 0 {
      OwnCountSnoc(read, r, row, uid);
    } else {
      assert NewRows(read, lines, uid, row) == r;
    }
  }

  lemma OthersSnoc(read: RowReader, xs: seq<string>, x: string, uid: int)
    ensures Others(read, xs + [x], uid) == Others(read, xs, uid) + if IsOwn(read, x, uid) then [] else [x]
  {
    assert (xs + [x])[..|xs|] == xs;
  }

  /** Every line that is not a row of the user is kept, in its order. */
  lemma {:induction false} OthersReplace(read: RowReader, lines: seq<string>, uid: int, row: string)
    requires IsOwn(read, row, uid)
    ensures Others(read, Replace(read, lines, uid, row), uid) == Others(read, lines, uid)
  {
    if lines != [] {
      OthersReplace(read, lines[..|lines| - 1], uid, row);
      ReplaceSnoc(read, lines, uid, row);
    }
  }

  /** The handler keeps every line that is not a row of the user, in its order, and adds
      nothing among them. */
  lemma OthersKept(read: RowReader, lines: seq<string>, uid: int, row: string)
    requires IsOwn(read, row, uid)
    ensures Others(read, NewRows(read, lines, uid, row), uid) == Others(read, lines, uid)
  {
    OthersReplace(read, lines, uid, row);
    var r := Replace(read, lines, uid, row);
    if OwnCount(read, lines, uid) == 0 {
      OthersSnoc(read, r, row, uid);
    } else {
      assert NewRows(read, lines, uid, row) == r;
    }
  }

  /** After the button every row of the user is the fresh row. */
  lemma NewRowsOwnAreRow(read: RowReader, lines: seq<string>, uid: int, row: string)
    ensures var n := NewRows(read, lines, uid, row);
      forall i :: 0 <= i < |n| ==> IsOwn(read, n[i], uid) ==> n[i] == row
  {
    var r := Replace(read, lines, uid, row);
    var n := NewRows(read, lines, uid, row);
    ReplaceAt(read, lines, uid, row);
    forall i | 0 <= i < |n| && IsOwn(read, n[i], uid)
      ensures n[i] == row
    {
      if i < |r| {
        assert n[i] == r[i];
      }
    }
  }

  /** Pressing the button twice with the same profile changes nothing the second time. */
  lemma NewRowsIdempotent(read: RowReader, lines: seq<string>, uid: int, row: string)
    requires IsOwn(read, row, uid)
    ensures NewRows(read, NewRows(read, lines, uid, row), uid, row) == NewRows(read, lines, uid, row)
  {
    var n := NewRows(read, lines, uid, row);
    OwnCountAfter(read, lines, uid, row);
    NewRowsOwnAreRow(read, lines, uid, row);
    var r := Replace(read, n, uid, row);
    ReplaceAt(read, n, uid, row);
    assert r == n;
  }

  /** ... and leaves the total where the first press put it. */
  lemma NewTotalIdempotent(read: RowReader, total: int, lines: seq<string>, uid: int, row: string, added: nat)
    requires Shows(read, row, uid, added)
    ensures NewTotal(read, NewTotal(read, total, lines, uid, added), NewRows(read, lines, uid, row), uid, added)
      == NewTotal(read, total, lines, uid, added)
  {
    var n := NewRows(read, lines, uid, row);
    var t := NewTotal(read, total, lines, uid, added);
    OwnCountAfter(read, lines, uid, row);
    NewRowsOwnAreRow(read, lines, uid, row);
    TallyClosedForm(read, t, n, uid, added);
    OwnAttackUniform(read, n, uid, row, added);
  }

  /** When every row of `uid` is `row`, their attacks add up to `added` per row. */
  lemma {:induction false} OwnAttackUniform(read: RowReader, lines: seq<string>, uid: int, row: string, added: nat)
    requires Shows(read, row, uid, added)
    requires forall i :: 0 <= i < |lines| ==> IsOwn(read, lines[i], uid) ==> lines[i] == row
    ensures OwnAttack(read, lines, uid) == OwnCount(read, lines, uid) * added
  {
    if lines != [] {
      var init := lines[..|lines| - 1];
      assert forall i :: 0 <= i < |init| ==> init[i] == lines[i];
      OwnAttackUniform(read, init, uid, row, added);
    }
  }
}

=== FILE: store.dfy ===
/**
 * The bot's user table: one record per Telegram user id holding the game API token, the
 * display name last built for the user and the attack last fetched. The SQL table becomes a
 * map the store updates in place.
 */
module Store {
  import opened Wrappers

  /** A stored row: the API token, the display name and the attack. */
  datatype UserRecord = UserRecord(token: string, name: string, atk: int)

  /** One entry of the full listing: the user id, the name and the attack (no token). */
  datatype UserSummary = UserSummary(uid: int, name: string, atk: int)

  /** The record stored for `uid`, if any. */
  function Lookup(records: map<int, UserRecord>, uid: int): (r: Option<UserRecord>)
    ensures r.Some? <==> uid in records
    ensures r.Some? ==> r.value == records[uid]
  {
    if uid in records then Some(records[uid]) else None
  }

  function Summary(records: map<int, UserRecord>, uid: int): UserSummary
    requires uid in records
  {
    UserSummary(uid, records[uid].name, records[uid].atk)
  }

  lemma NoMemberEmpty(ids: set<int>)
    requires forall x :: x !in ids
    ensures ids == {}
  {
    assert forall x :: x in ids <==> x in {};
  }

  /** A non-empty set of ids has a member. */
  lemma SomeMember(ids: set<int>) returns (k: int)
    requires ids != {}
    ensures k in ids
  {
    if forall x :: x !in ids {
      NoMemberEmpty(ids);
      assert false;
    }
    k :| k in ids;
  }

  /** Every id of `ids` has an entry in `users`. */
  ghost predicate Lists(users: seq<UserSummary>, ids: set<int>) {
    forall x :: x in ids ==> exists i :: 0 <= i < |users| && users[i].uid == x
  }

  /** `users` lists the users `seen` of `all`, each once, with the name and attack stored. */
  ghost predicate Listing(users: seq<UserSummary>, all: map<int, UserRecord>, seen: set<int>) {
    && seen <= all.Keys && |users| == |seen|
    && (forall i :: 0 <= i < |users| ==> users[i].uid in seen && users[i] == Summary(all, users[i].uid))
    && (forall i, j :: 0 <= i < j < |users| ==> users[i].uid != users[j].uid)
    && Lists(users, seen)
  }

  lemma ListingStep(users: seq<UserSummary>, all: map<int, UserRecord>, seen: set<int>, next: int)
    requires Listing(users, all, seen) && next in all && next !in seen
    ensures Listing(users + [Summary(all, next)], all, seen + {next})
  {
    var u := Summary(all, next);
    var xs := users + [u];
    assert |seen + {next}| == |seen| + 1;
    forall x | x in seen + {next}
      ensures exists i :: 0 <= i < |xs| && xs[i].uid == x
    {
      if x == next {
        assert xs[|users|].uid == x;
      } else {
        var i :| 0 <= i < |users| && users[i].uid == x;
        assert xs[i].uid == x;
      }
    }
  }

  class UserStore {
    var records: map<int, UserRecord>

    /** Opens the store over the rows already in the table. */
    constructor(existing: map<int, UserRecord>)
      ensures records == existing
    {
      records := existing;
    }

    /** Upsert: an existing row for `uid` is overwritten, otherwise a row is inserted; either
        way the answer is true. */
    method SetUser(uid: int, rec: UserRecord) returns (ok: bool)
      modifies this
      ensures ok
      ensures records == old(records)[uid := rec]
    {
      if uid in records {
        records := records[uid := rec];
        return true;
      }
      records := records[uid := rec];
      return true;
    }

    /** The stored triple for `uid`, or nothing when the user never linked an account. */
    method GetUser(uid: int) returns (r: Option<UserRecord>)
      ensures r.Some? <==> uid in records
      ensures r.Some? ==> r.value == records[uid]
    {
      if uid in records {
        return Some(records[uid]);
      }
      return None;
    }

    /** Every stored user once, with name and attack, in no particular order. */
    method GetAllUsers() returns (users: seq<UserSummary>)
      ensures |users| == |records|
      ensures forall i :: 0 <= i < |users| ==> users[i].uid in records && users[i] == Summary(records, users[i].uid)
      ensures forall i, j :: 0 <= i < j < |users| ==> users[i].uid != users[j].uid
      ensures forall uid :: uid in records ==> exists i :: 0 <= i < |users| && users[i].uid == uid
    {
      var all := records;
      users := [];
      var rest := all.Keys;
      ghost var seen: set<int> := {};
      while rest != {}
        invariant seen + rest == all.Keys && seen !! rest
        invariant Listing(users, all, seen)
        decreases |rest|
      {
        ghost var some := SomeMember(rest);
        var next :| next in rest;
        ListingStep(users, all, seen, next);
        users := users + [Summary(all, next)];
        rest := rest - {next};
        seen := seen + {next};
      }
      assert seen == all.Keys;
    }
  }

  /** After an upsert the user reads back exactly what was written, and every other user reads
      back what they read before. */
  lemma SetThenGet(records: map<int, UserRecord>, uid: int, rec: UserRecord, other: int)
    ensures Lookup(records[uid := rec], uid) == Some(rec)
    ensures other != uid ==> Lookup(records[uid := rec], other) == Lookup(records, other)
  {
  }

  /** Writing back what is stored changes nothing, and a second identical write changes
      nothing more. */
  lemma SetIdempotent(records: map<int, UserRecord>, uid: int, rec: UserRecord)
    ensures records[uid := rec][uid := rec] == records[uid := rec]
    ensures Lookup(records, uid) == Some(rec) ==> records[uid := rec] == records
  {
  }
}

=== FILE: strings.dfy ===
/**
 * Text helpers that the bot takes from Python: decimal digits as the `\d` class and `int()`
 * read them, `str()` of an integer, `str.rjust`, `str.split("\n")`, `filter(bool, ...)` and the
 * buffer of newline-terminated rows that the "add" handler writes into.
 */
module Strings {

  /** The regex class `\d`, restricted to ASCII digits. */
  predicate IsDigit(c: char) {
    '0' <= c <= '9'
  }

  predicate AllDigits(s: string) {
    forall i :: 0 <= i < |s| ==> IsDigit(s[i])
  }

  function DigitChar(d: nat): (c: char)
    requires d < 10
    ensures IsDigit(c) && c as int - '0' as int == d
  {
    ('0' as int + d) as char
  }

  /** The value of one digit; the parsers only ever read digits. */
  function DigitValue(c: char): nat {
    if IsDigit(c) then c as int - '0' as int else 0
  }

  /** `int(s)` for a run of digits. */
  function DigitsValue(s: string): nat {
    if s == [] then 0 else DigitsValue(s[..|s| - 1]) * 10 + DigitValue(s[|s| - 1])
  }

  /** `str(n)` for a non-negative integer: the shortest digit string that reads back as `n`. */
  function NatToDecimal(n: nat): (r: string)
    ensures |r| > 0 && AllDigits(r)
    ensures DigitsValue(r) == n
    ensures r[0] == '0' ==> n == 0
    ensures |r| > 1 ==> r[0] != '0'
    ensures n == 0 ==> r == "0"
  {
    if n < 10 then [DigitChar(n)]
    else
      var r := NatToDecimal(n / 10) + [DigitChar(n % 10)];
      assert r[..|r| - 1] == NatToDecimal(n / 10);
      r
  }

  /** `str(n)` for any integer: a minus sign before the digits of a negative value, and no
      leading zero. */
  function IntToDecimal(n: int): (r: string)
    ensures n >= 0 ==> AllDigits(r) && |r| > 0 && DigitsValue(r) == n
    ensures n < 0 ==> |r| > 1 && r[0] == '-' && AllDigits(r[1..]) && DigitsValue(r[1..]) == -n
    ensures n >= 0 ==> (r[0] == '0' ==> n == 0)
    ensures n < 0 ==> r[1] != '0'
    ensures n >= 0 && |r| > 1 ==> r[0] != '0'
    ensures n == 0 ==> r == "0"
  {
    if n < 0 then "-" + NatToDecimal(-n) else NatToDecimal(n)
  }

  function Spaces(n: nat): (r: string)
    ensures |r| == n && forall i :: 0 <= i < n ==> r[i] == ' '
  {
    seq(n, _ => ' ')
  }

  /** `s.rjust(width, ' ')`: `s` padded with spaces on the left up to `width` characters. */
  function RJust(s: string, width: nat): (r: string)
    ensures |r| == if |s| < width then width else |s|
    ensures r[|r| - |s|..] == s
    ensures forall i :: 0 <= i < |r| - |s| ==> r[i] == ' '
  {
    if |s| < width then Spaces(width - |s|) + s else s
  }

  /** The first position at or after `from` holding `c`, or `|s|` when there is none. */
  function FindChar(s: string, from: nat, c: char): (j: nat)
    requires from <= |s|
    ensures from <= j <= |s|
    ensures j < |s| ==> s[j] == c
    ensures forall k :: from <= k < j ==> s[k] != c
    decreases |s| - from
  {
    if from == |s| || s[from] == c then from else FindChar(s, from + 1, c)
  }

  /** The first digit at or after `from`, or `|s|`: where `\D*` stops. */
  function SkipNonDigits(s: string, from: nat): (j: nat)
    requires from <= |s|
    ensures from <= j <= |s|
    ensures j < |s| ==> IsDigit(s[j])
    ensures forall k :: from <= k < j ==> !IsDigit(s[k])
    decreases |s| - from
  {
    if from == |s| || IsDigit(s[from]) then from else SkipNonDigits(s, from + 1)
  }

  /** The first non-digit at or after `from`, or `|s|`: where `\d+` stops. */
  function SkipDigits(s: string, from: nat): (j: nat)
    requires from <= |s|
    ensures from <= j <= |s|
    ensures j < |s| ==> !IsDigit(s[j])
    ensures forall k :: from <= k < j ==> IsDigit(s[k])
    decreases |s| - from
  {
    if from == |s| || !IsDigit(s[from]) then from else SkipDigits(s, from + 1)
  }

  /** `s.split("\n")`: the pieces between newlines, always at least one. */
  function Split(s: string): (r: seq<string>)
    ensures |r| > 0
    ensures forall i :: 0 <= i < |r| ==> '\n' !in r[i]
    decreases |s|
  {
    var n := FindChar(s, 0, '\n');
    if n == |s| then [s] else [s[..n]] + Split(s[n + 1..])
  }

  /** `"\n".join(parts)`. */
  function JoinWithNewlines(parts: seq<string>): string
    requires |parts| > 0
  {
    if |parts| == 1 then parts[0] else parts[0] + "\n" + JoinWithNewlines(parts[1..])
  }

  /** Splitting on newlines and joining with newlines gives back the text. */
  lemma {:induction false} SplitRejoin(s: string)
    ensures JoinWithNewlines(Split(s)) == s
    decreases |s|
  {
    var n := FindChar(s, 0, '\n');
    if n < |s| {
      SplitRejoin(s[n + 1..]);
      assert s == s[..n] + "\n" + s[n + 1..];
    }
  }

  /** `filter(bool, xs)`: the non-empty strings of `xs`, in order. */
  function NonEmpty(xs: seq<string>): (r: seq<string>)
    ensures |r| <= |xs|
    ensures forall i :: 0 <= i < |r| ==> r[i] != "" && r[i] in xs
    ensures (forall i :: 0 <= i < |xs| ==> xs[i] != "") ==> r == xs
  {
    if xs == [] then [] else (if xs[0] == "" then [] else [xs[0]]) + NonEmpty(xs[1..])
  }

  /** The lines of a roster body as the "add" handler visits them: split on "\n", empty ones dropped. */
  function BodyLines(body: string): (r: seq<string>)
    ensures forall i :: 0 <= i < |r| ==> r[i] != "" && '\n' !in r[i]
  {
    var parts := Split(body);
    var r := NonEmpty(parts);
    assert forall i :: 0 <= i < |r| ==> r[i] in parts;
    r
  }

  /** What writing `x + "\n"` for each `x` of `xs` into an empty buffer leaves in it. */
  function JoinLines(xs: seq<string>): string {
    if xs == [] then "" else xs[0] + "\n" + JoinLines(xs[1..])
  }

  lemma {:induction false} JoinLinesSnoc(xs: seq<string>, x: string)
    ensures JoinLines(xs + [x]) == JoinLines(xs) + x + "\n"
  {
    if xs != [] {
      assert (xs + [x])[1..] == xs[1..] + [x];
      JoinLinesSnoc(xs[1..], x);
    }
  }

  /** A newline-free first line splits off as the first piece. */
  lemma SplitCons(x: string, rest: string)
    requires '\n' !in x
    ensures Split(x + "\n" + rest) == [x] + Split(rest)
  {
    var s := x + "\n" + rest;
    assert forall k :: 0 <= k < |x| ==> s[k] == x[k];
    assert s[|x|] == '\n';
    assert FindChar(s, 0, '\n') == |x|;
    assert s[..|x|] == x && s[|x| + 1..] == rest;
  }

  /** Newline-free lines written one per row split back into the same lines and one empty tail. */
  lemma {:induction false} SplitJoinLines(xs: seq<string>)
    requires forall i :: 0 <= i < |xs| ==> '\n' !in xs[i]
    ensures Split(JoinLines(xs)) == xs + [""]
  {
    if xs != [] {
      var rest := xs[1..];
      assert xs == [xs[0]] + rest && JoinLines(xs) == xs[0] + "\n" + JoinLines(rest);
      SplitJoinLines(rest);
      SplitCons(xs[0], JoinLines(rest));
    }
  }

  lemma {:induction false} NonEmptyAppend(xs: seq<string>, ys: seq<string>)
    ensures NonEmpty(xs + ys) == NonEmpty(xs) + NonEmpty(ys)
  {
    if xs == [] {
      assert xs + ys == ys;
    } else {
      assert (xs + ys)[1..] == xs[1..] + ys;
      NonEmptyAppend(xs[1..], ys);
    }
  }

  /** Rows written one per line read back as exactly those rows: the body codec round trip. */
  lemma BodyLinesOfJoin(xs: seq<string>)
    requires forall i :: 0 <= i < |xs| ==> xs[i] != "" && '\n' !in xs[i]
    ensures BodyLines(JoinLines(xs)) == xs
  {
    SplitJoinLines(xs);
    NonEmptyAppend(xs, [""]);
  }
}

=== FILE: wrappers.dfy ===
/** Option and Result values, used where the source returns None or raises. */
module Wrappers {

  datatype Option<+T> = None | Some(value: T) {
    function GetOr(default: T): T {
      match this
      case Some(v) => v
      case None => default
    }
  }

  datatype Result<+R, +E> = Success(value: R) | Failure(error: E)
}
